=== FILE: README.md ===
# keyspark-piano: a verified model of the practice logic

keyspark-piano is a browser piano tutor. Beneath its React markup sit a few
pieces of plain sequential logic, and this project models them in Dafny and
proves what they promise:

- **The progress ledger** (`progressStore`) keeps one record per browser:
  completed lesson ids, practice minutes, xp and level. Local storage becomes
  an abstract value `Progress.Store`: no window, nothing stored, unparseable
  text, or a parsed record. `get`, `save`, `addXp`, `completeLesson` and
  `addPracticeTime` become pure functions from a store to the record they
  return and the store they leave. The level is `floor(sqrt(xp / 100)) + 1`,
  stated exactly, without floating-point rounding, as "1 plus the largest k
  with 100·k² ≤ xp".
- **The profile page** computes a level bar and a rank. The model covers the
  bar's band `[100·(level−1)², 100·level²)`, its clamped width, and the five
  rank thresholds.
- **The lesson runner** tracks a set of held notes, a pattern step and a
  status. A step is accepted when the held set is exactly the step's note
  group. The validation effect runs again whenever the step changes, so
  `LessonRunner.Settle` applies the one-run `LessonRunner.Check` until
  nothing changes. `nextExercise` either moves on or reports the lesson to
  the ledger.
- **The keyboard** builds its key list from a start octave and an octave
  count. It maps computer keys to notes (lower-cased, auto-repeat ignored),
  keeps the set of sounding notes, and forwards start and stop callbacks.
  Each on-screen key (`PianoKey`) turns pointer events into start and stop
  requests.
- **The song visualizer** puts each note in one of 15 white-key lanes, keeps
  a three-second look-ahead window, and stops playback two seconds after the
  song ends. JavaScript's `%` is truncating, so `Visualizer.JsRem` models it
  explicitly. A lane that would be `NaN` is `None`.
- **The metronome** starts at 100 BPM and moves in steps of 5, clamped to
  [40, 240].
- **The catalogues** are the two sample songs and the three lessons,
  transcribed as constants. Lemmas prove the shape the logic relies on:
  - names match MIDI numbers;
  - times are sorted and notes fit within the song;
  - every note lies on the two-octave keyboard;
  - every note group is non-empty and duplicate-free;
  - song ids and lesson ids are distinct.

Modules follow the source files: `Notes` (the note-name table and
integer-to-text shared by the others), `Progress`, `Profile`, `LessonRunner`,
`Lessons`, `Keyboard`, `PianoKey`, `Visualizer`, `Songs`, `Metronome`. Song
times are `real` and integers are `int`, both exact and unbounded, where the
source's numbers are JavaScript doubles; the lines under "## Left out" that
start with `Notes.IntStr` and `Visualizer.VisibleNotes` say where this matters.

`getNotePosition` in the visualizer is never called. It counts the white keys
below a note. `Visualizer.WhiteCountMatchesSlot` shows that this count equals
the render loop's lane for a white key, but is one more than the lane for a
black key.

A visible note is drawn transparent in its last 0.1 seconds before being hit
(`src/components/songs/Visualizer.tsx:208`). A note that starts before 0.1 s,
such as Twinkle's first note at time 0, is therefore never drawn opaque.

## Model

| member | source | states |
|---|---|---|
| Notes.IntStr | src/components/piano/Keyboard.tsx:34 | an octave number of magnitude below 10^21 is rendered as decimal digits, preceded by a minus sign exactly when it is negative |
| Notes.ParseIntStr | src/components/piano/Keyboard.tsx:34 | the rendered octave number reads back as the same integer |
| Notes.PitchClassOfNotes | src/components/piano/Keyboard.tsx:13 | each of the 12 pitch names is one letter or a letter plus '#', contains '#' exactly when it is two characters long, and names its own position |
| Notes.ParseNoteNameRoundTrip | src/components/piano/Keyboard.tsx:34 | a key name `pitch + octave` splits back into the same pitch class and octave |
| Notes.NoteNameShape | src/components/piano/Keyboard.tsx:34 | a key name is its pitch name, then a minus sign exactly when the octave is negative, then decimal digits |
| Notes.MidiNameRoundTrip | src/data/songs.ts:27-59 | the name of a MIDI number splits back into pitch class midi mod 12 and octave midi div 12 − 1 |
| Notes.MidiNameInjective | src/data/songs.ts:27-59 | distinct MIDI numbers have distinct names |
| Notes.NoteNameInjective | src/components/piano/Keyboard.tsx:34 | two key names are equal only for the same pitch class and the same octave |
| Progress.OrElse | src/lib/progress.ts:17 | JavaScript's or-default on a numeric field: a non-zero stored number is kept; an absent or zero one becomes the default |
| Progress.Get | src/lib/progress.ts:13-21 | no window, nothing stored, or unparseable text give `{[], 0, 0, 1}`; a stored record keeps its lessons and minutes, and a falsy xp becomes 0 and a falsy level 1 |
| Progress.Save | src/lib/progress.ts:23-26 | without a window nothing is written; otherwise the store afterwards holds a record |
| Progress.GetAfterSave | src/lib/progress.ts:17-25 | reading back a saved record returns it unchanged exactly when its level is not 0 |
| Progress.LevelFor | src/lib/progress.ts:31 | the level for a non-negative xp is 1 plus the largest k with 100·k² ≤ xp, so it is at least 1 |
| Progress.LevelUnique | src/lib/progress.ts:31 | at most one level has xp inside its band |
| Progress.LevelIsLargestRoot | src/lib/progress.ts:31 | every k with 100·k² ≤ xp is at most level − 1, and level − 1 itself satisfies it |
| Progress.LevelMonotone | src/lib/progress.ts:31 | more xp never gives a lower level |
| Progress.AddXp | src/lib/progress.ts:28-40 | xp becomes the old xp plus the amount, the level follows the new xp, lessons and minutes are untouched, and the returned record is the one saved |
| Progress.CompleteLesson | src/lib/progress.ts:42-56 | a new id is appended once with 500 more xp and a level that follows it; an id already present returns the stored record and changes nothing |
| Progress.AddPracticeTime | src/lib/progress.ts:58-69 | minutes increase by m and xp by 10·m, the level follows the xp, and the lessons are untouched |
| Progress.UpdateReadsBack | src/lib/progress.ts:28-69 | with a window, the record a ledger operation returns is what the next `get` reads |
| Progress.CompleteLessonIdempotent | src/lib/progress.ts:44-55 | completing a lesson twice gives the same store and result as completing it once |
| Progress.LedgerNeverDecreases | src/lib/progress.ts:28-69 | with non-negative amounts, no operation lowers xp, practice minutes or the number of completed lessons |
| Profile.NextLevelXp | src/app/profile/page.tsx:16 | from level 1 up, the next-level xp is the first xp at which the ledger's formula gives level + 1 |
| Profile.CurrentLevelBaseXp | src/app/profile/page.tsx:17 | from level 1 up, the base xp is the first xp at which the ledger's formula gives this level |
| Profile.LevelProgress | src/app/profile/page.tsx:18 | from level 1 up, the progress is at least 0 exactly when xp reaches the base, and below 100 exactly when xp is below the next level's xp |
| Profile.LevelBandWidth | src/app/profile/page.tsx:16-18 | next − base = 100·(2·level − 1), which is never 0 and is positive from level 1 up, so the division is defined |
| Profile.ProgressWithinBand | src/app/profile/page.tsx:16-18 | for a level that follows the ledger's formula, base ≤ xp < next and the level progress lies in [0, 100) |
| Profile.BarWidth | src/app/profile/page.tsx:56 | the drawn width always lies in [0, 100]; it is the progress when that is in range, 0 below and 100 above |
| Profile.BarWidthOfLedgerRecord | src/app/profile/page.tsx:56 | for a record the ledger wrote, the clamp never changes the progress |
| Profile.GetRank | src/app/profile/page.tsx:20-26 | the rank shown is Beginner or one whose minimum level is reached, and no higher rank's minimum is reached |
| Profile.RankAtLeast | src/app/profile/page.tsx:20-26 | a level gets a given rank or a higher one exactly when it reaches that rank's minimum level (1, 5, 15, 30, 50) |
| Profile.RankByThresholds | src/app/profile/page.tsx:20-26 | a level from 1 up gets a rank exactly when it reaches that rank's minimum and no higher rank's |
| Profile.RankMonotone | src/app/profile/page.tsx:20-26 | a higher level never gets a lower rank |
| Profile.LevelReachedAt | src/lib/progress.ts:31 | the ledger's level reaches m exactly when xp ≥ 100·(m − 1)² |
| Profile.RankXpThreshold | src/app/profile/page.tsx:20-28 | the profile shows a given rank or a higher one exactly from 100·(minimum level − 1)² xp up |
| LessonRunner.PlayNote | src/components/lesson/LessonRunner.tsx:25-31 | the note is held afterwards, no other note's membership changes, and step, status and exercise are kept |
| LessonRunner.StopNote | src/components/lesson/LessonRunner.tsx:33-39 | the note is not held afterwards, no other note's membership changes, and step, status and exercise are kept |
| LessonRunner.DistinctGroupSetSize | src/components/lesson/LessonRunner.tsx:75-76 | a duplicate-free group has as many distinct notes as entries |
| LessonRunner.Matches | src/components/lesson/LessonRunner.tsx:74-76 | a match means every note of the group is held; for a duplicate-free group, the size-plus-containment test holds exactly when the held set equals the group's notes, so an extra held note never matches |
| LessonRunner.RepeatedNoteAdmitsStrayNote | src/components/lesson/LessonRunner.tsx:74-78 | a group that repeats a note is matched by a held set with a stray extra note |
| LessonRunner.Check | src/components/lesson/LessonRunner.tsx:67-96 | one run of the effect: success absorbs; a missing group changes nothing; a match on the last step sets success and an earlier match advances the step by one; a mismatch changes nothing, and the mistake branch does nothing |
| LessonRunner.Settle | src/components/lesson/LessonRunner.tsx:67-96 | re-running the effect after each change keeps the held set; from an in-range step it passes only over matched groups, ends on a valid step, and stops at success on the last step or at the first unmatched group with the status unchanged |
| LessonRunner.SettleIsFixpoint | src/components/lesson/LessonRunner.tsx:96 | a settled runner is left unchanged by another run of the effect |
| LessonRunner.Mount | src/components/lesson/LessonRunner.tsx:18-23 | a lesson starts on exercise 0 with nothing held; with non-empty groups it starts at step 0 and idle |
| LessonRunner.OnPlay | src/components/lesson/LessonRunner.tsx:25-31 | a reported start adds the note to the held set and keeps the exercise |
| LessonRunner.OnStop | src/components/lesson/LessonRunner.tsx:33-39 | a reported stop removes the note from the held set and keeps the exercise |
| LessonRunner.SuccessAbsorbs | src/components/lesson/LessonRunner.tsx:68 | after success, pressing or releasing notes changes only the held set |
| LessonRunner.MismatchChangesNothing | src/components/lesson/LessonRunner.tsx:91-95 | a held set that does not match the current group leaves step and status unchanged |
| LessonRunner.SettleKeepsValid | src/components/lesson/LessonRunner.tsx:71-89 | the effect keeps the step at 0 or within the exercise's groups, and never sets the mistake status |
| LessonRunner.MountValid | src/components/lesson/LessonRunner.tsx:18-23 | the starting runner is valid |
| LessonRunner.InputKeepsValid | src/components/lesson/LessonRunner.tsx:25-96 | pressing and releasing notes keeps the runner valid, so the status is never `mistake` |
| LessonRunner.CompletedRecord | src/lib/progress.ts:42-56 | with a window, the record after completing a lesson is what the next `get` reads; without one the store stays windowless |
| LessonRunner.NextExercise | src/components/lesson/LessonRunner.tsx:98-111 | before the last exercise, moves to the next one with the held set kept, the step reset to 0 and the status to idle, then settles; on the last exercise, finishes through the ledger, and the store has a window exactly when it had one before |
| LessonRunner.ClickNext | src/components/lesson/LessonRunner.tsx:173-181 | the next-exercise button exists, and so acts, exactly when the status is success |
| LessonRunner.NextKeepsValid | src/components/lesson/LessonRunner.tsx:99-103 | moving to the next exercise keeps the runner valid |
| LessonRunner.AdvanceResets | src/components/lesson/LessonRunner.tsx:99-103 | unless the held notes already match the next exercise's first group, moving on leaves exactly step 0 and idle |
| LessonRunner.FinishAwards | src/components/lesson/LessonRunner.tsx:104-107 | finishing a lesson the first time adds 550 xp and records the lesson; a repeat adds 50 xp; both add 5 minutes, and the level follows the xp |
| LessonRunner.ApplyCallbacksAppend | src/components/lesson/LessonRunner.tsx:25-39 | applying two runs of callbacks is applying the first and then the second |
| LessonRunner.Deliver | src/components/lesson/LessonRunner.tsx:25-39 | delivering callbacks in order leaves the held set the callbacks describe and keeps the exercise |
| LessonRunner.InputCallbacksMatchActive | src/components/piano/Keyboard.tsx:43-58 | one keyboard input changes the keyboard's sounding set exactly as its forwarded callbacks change a held set |
| LessonRunner.RunCallbacksMatchActive | src/components/piano/Keyboard.tsx:43-83 | the same holds for any stream of inputs |
| LessonRunner.HeldMirrorsKeyboard | src/components/lesson/LessonRunner.tsx:164-168 | starting from the same set, the runner's held notes equal the keyboard's sounding notes after any inputs |
| LessonRunner.RepeatedStepNeedsNoRelease | src/components/lesson/LessonRunner.tsx:85-89 | steps advance without waiting for a release: one press of C4 completes the pattern C4, C4 |
| Lessons.IntroCMajorWellFormed | src/data/lessons.ts:17-28 | the C major lesson's exercises have the shape their types promise, groups are non-empty and duplicate-free, and every note is on the keyboard |
| Lessons.IntervalsWellFormed | src/data/lessons.ts:29-39 | the same for the intervals lesson |
| Lessons.FirstChordWellFormed | src/data/lessons.ts:40-48 | the same for the chord lesson |
| Lessons.CatalogueWellFormed | src/data/lessons.ts:16-49 | every lesson has at least one exercise and is well formed, and lesson ids are distinct |
| Lessons.ExerciseNoteIsKey | src/data/lessons.ts:23-46 | every note of a well-formed exercise is the name of a key the default keyboard draws |
| Keyboard.OctaveKeys | src/components/piano/Keyboard.tsx:32-38 | one octave contributes 12 keys |
| Keyboard.OctaveRun | src/components/piano/Keyboard.tsx:30-39 | n octaves contribute 12·n keys |
| Keyboard.BuildKeys | src/components/piano/Keyboard.tsx:29-41 | the nested loop builds exactly the key layout |
| Keyboard.OctaveRunAt | src/components/piano/Keyboard.tsx:30-39 | key i of the octave run has pitch class i mod 12 in octave start + i div 12 |
| Keyboard.KeyLayout | src/components/piano/Keyboard.tsx:29-41 | with n octaves the list has 12·n + 1 keys (one for n ≤ 0), and the last is the white C of octave start + n |
| Keyboard.KeyLayoutShape | src/components/piano/Keyboard.tsx:29-41 | with n octaves there are 12·n + 1 keys; key i < 12·n is `NOTES[i mod 12]` then start + i div 12, and the last is `C{start+n}` |
| Keyboard.KeyLayoutNames | src/components/piano/Keyboard.tsx:33-41 | each key's note, colour and base name follow its pitch class and octave |
| Keyboard.KeyNamesDistinct | src/components/piano/Keyboard.tsx:29-41 | all key names are pairwise distinct |
| Keyboard.KeyIsMidiNote | src/components/piano/Keyboard.tsx:29-41 | key i is the name of MIDI note 12·(start + 1) + i |
| Keyboard.DefaultKeyNames | src/components/piano/Keyboard.tsx:22 | the default keyboard (octave 4, two octaves) draws the 25 keys C4 to C6, key i being MIDI note 60 + i |
| Keyboard.BlackCountConcat | src/components/piano/Keyboard.tsx:35 | black keys of a concatenation add up |
| Keyboard.BlackCountFollowsNames | src/components/piano/Keyboard.tsx:35 | given keys whose colour follows their names, black keys are counted by sharps |
| Keyboard.OctaveBlackCount | src/components/piano/Keyboard.tsx:35 | each octave has 5 black keys |
| Keyboard.OctaveRunBlackCount | src/components/piano/Keyboard.tsx:30-39 | n octaves have 5·n black keys |
| Keyboard.KeyColourCounts | src/components/piano/Keyboard.tsx:35-41 | the keyboard has 5·n black and 7·n + 1 white keys |
| Keyboard.DefaultKeyboardWhiteKeys | src/components/songs/Visualizer.tsx:188 | the default keyboard has 15 white keys, the visualizer's 15 lanes |
| Keyboard.Lookup | src/components/piano/Keyboard.tsx:63 | a key finds a note exactly when the table binds it, and the note found is the one bound to it |
| Keyboard.LowerChar | src/components/piano/Keyboard.tsx:63 | A to Z map to a to z, the Kelvin sign maps to `k`, and every other character is kept |
| Keyboard.ToLower | src/components/piano/Keyboard.tsx:63 | lower-casing keeps the length and lower-cases each character on its own |
| Keyboard.NoteForKey | src/components/piano/Keyboard.tsx:63 | a key plays a note exactly when its lower-cased name is bound in the table, the note is the one bound to it, and only single-character keys play |
| Keyboard.LookupFirst | src/components/piano/Keyboard.tsx:63 | the lookup finds the note of the first binding for the key |
| Keyboard.KelvinSignPlaysC5 | src/components/piano/Keyboard.tsx:63 | the Kelvin sign lower-cases to `k` and so plays C5 |
| Keyboard.KeyMapKeysDistinct | src/components/piano/Keyboard.tsx:16-20 | the table's keys are lower-case and distinct |
| Keyboard.KeyMapNotesDistinct | src/components/piano/Keyboard.tsx:16-20 | no two computer keys play the same note |
| Keyboard.KeyMapNotesOnKeyboard | src/components/piano/Keyboard.tsx:16-22 | the table binds, in order, the first 18 keys of the default keyboard |
| Keyboard.ShiftedKeySameNote | src/components/piano/Keyboard.tsx:63 | an upper-case letter plays the same note as its lower-case form |
| Keyboard.StartNote | src/components/piano/Keyboard.tsx:43-48 | starting a note makes it sound, leaves every other note as it was, and forwards it to `onPlayNote` |
| Keyboard.StopNote | src/components/piano/Keyboard.tsx:50-58 | stopping a note silences it, leaves every other note as it was, and forwards it to `onStopNote` |
| Keyboard.OnKeyEvent | src/components/piano/Keyboard.tsx:61-74 | unbound keys and auto-repeated key-downs do nothing; a fresh key-down starts its note and a key-up stops it |
| Keyboard.OnPointer | src/components/piano/Keyboard.tsx:92-98 | a press on a key starts its note, a release or a leave while sounding stops it, and leaving a silent key does nothing |
| Keyboard.RepeatsChangeNothing | src/components/piano/Keyboard.tsx:62 | a run of auto-repeat key-downs changes nothing and forwards nothing |
| Keyboard.HeldKeyStartsOnce | src/components/piano/Keyboard.tsx:61-67 | holding a bound key down starts its note exactly once, however many repeats follow |
| Keyboard.PressThenReleaseIsSilent | src/components/piano/PianoKey.tsx:21-33 | a press followed by a release or a leave leaves the key's note silent, when the press's start has completed before the release arrives |
| PianoKey.Handle | src/components/piano/PianoKey.tsx:21-41 | mouse-down and touch-start start the key's own note; mouse-up and touch-end stop it; leaving stops it only while it sounds and otherwise does nothing; no other note is ever named |
| Visualizer.JsRem | src/components/songs/Visualizer.tsx:180 | JavaScript `%` equals the mathematical remainder for a non-negative dividend and is in (−12, 0] with the dividend's sign otherwise |
| Visualizer.Slot | src/components/songs/Visualizer.tsx:171-186 | a note gets a lane exactly when it is C4 or above or a whole number of octaves below C4; the lane is non-negative from C4 up and below 15 from C4 to C6 |
| Visualizer.SlotIsBlack | src/components/songs/Visualizer.tsx:184 | from C4 up, the render loop draws a note as black exactly when its pitch name contains '#'; below C4 it never does |
| Visualizer.PositionIsBlack | src/components/songs/Visualizer.tsx:55 | for a non-negative MIDI number, the position helper's test is black exactly when the pitch name contains '#'; for a negative one, exactly when it is not a whole octave |
| Visualizer.SongNoteHasLane | src/components/songs/Visualizer.tsx:34-35 | the lanes span the default keyboard's MIDI range, so every note of a well-formed song has one of the 15 lanes |
| Visualizer.SlotFromMiddleC | src/components/songs/Visualizer.tsx:171-186 | from C4 up, the lane is 7·((midi − 60) div 12) plus the table entry for (midi − 60) mod 12 |
| Visualizer.SlotBelowMiddleC | src/components/songs/Visualizer.tsx:179-186 | below C4, the lane is a number exactly for whole octaves below C4 and is `NaN` otherwise |
| Visualizer.SlotInRange | src/components/songs/Visualizer.tsx:186-188 | notes from C4 to C6 fall into one of the 15 lanes |
| Visualizer.BlackTestsAgree | src/components/songs/Visualizer.tsx:46-55 | from C4 up, the render loop's black-key test agrees with the position helper's |
| Visualizer.BlackSharesLaneBelow | src/components/songs/Visualizer.tsx:183-184 | a black key is drawn in the lane of the white key just below it |
| Visualizer.SlotMonotone | src/components/songs/Visualizer.tsx:179-186 | the lane never decreases as the pitch rises |
| Visualizer.WhiteKeyIndex | src/components/songs/Visualizer.tsx:49-52 | the loop counts the white keys from C4 up to, not including, the note |
| Visualizer.WhiteKeysClosedForm | src/components/songs/Visualizer.tsx:49-52 | that count is 7 per octave plus the white keys below the note within its octave |
| Visualizer.WhiteCountMatchesSlot | src/components/songs/Visualizer.tsx:49-55 | the count equals the lane for a white key and is the lane plus one for a black key |
| Visualizer.VisibleNotes | src/components/songs/Visualizer.tsx:135-137 | the visible notes are exactly the song's notes starting in [now, now + 3), each as often as it occurs in the song, and there are no more of them than notes |
| Visualizer.VisibleIsSubsequence | src/components/songs/Visualizer.tsx:135-137 | the visible notes keep the song's order |
| Visualizer.VisibleKeepsOrder | src/components/songs/Visualizer.tsx:135-137 | the visible notes of a time-sorted song are time-sorted |
| Visualizer.PlaybackEnded | src/components/songs/Visualizer.tsx:73 | playback ends once more than 2 seconds have passed since the song's total duration, by which time every note that ends within the song ended more than 2 seconds ago |
| Visualizer.NothingVisibleAfterEnd | src/components/songs/Visualizer.tsx:73-76 | once playback has stopped, at more than total + 2 seconds, no note of a song whose notes fit its length is drawn |
| Visualizer.NoneInWindow | src/components/songs/Visualizer.tsx:135-137 | notes that all start before now are all filtered out |
| Visualizer.EveryNoteShownBeforeEnd | src/components/songs/Visualizer.tsx:73-76 | every note is in the visible list at its own start time, and playback has not stopped by then |
| Visualizer.NoteDrawnOpaque | src/components/songs/Visualizer.tsx:135-208 | a note is in the visible list and drawn opaque exactly when now is in (start − 3, start − 0.1], and playback has not stopped at any such time |
| Visualizer.EarlyNoteNeverOpaque | src/components/songs/Visualizer.tsx:208 | a note starting before 0.1 s is transparent at every non-negative playback time |
| Visualizer.TwinkleFirstNoteNeverOpaque | src/components/songs/Visualizer.tsx:208 | Twinkle's first note, at time 0, is in the visible list at time 0 but is never drawn opaque |
| Songs.TwinkleNamesMatchMidi | src/data/songs.ts:27-41 | each Twinkle note's name is `NOTES[midi mod 12]` then midi div 12 − 1 |
| Songs.TwinkleAdjacentSorted | src/data/songs.ts:27-41 | Twinkle's notes start in non-decreasing time order |
| Songs.TwinkleNotesFitDuration | src/data/songs.ts:25-41 | Twinkle's notes start at 0 or later, last a positive time and end by 12 s |
| Songs.TwinkleMidiInLaneRange | src/data/songs.ts:27-41 | Twinkle's notes lie in MIDI 60 to 84 |
| Songs.TwinkleWellFormed | src/data/songs.ts:20-43 | Twinkle meets all four invariants |
| Songs.FurEliseNamesMatchMidi | src/data/songs.ts:51-59 | each Für Elise note's name is `NOTES[midi mod 12]` then midi div 12 − 1 |
| Songs.FurEliseAdjacentSorted | src/data/songs.ts:51-59 | Für Elise's notes start in non-decreasing time order |
| Songs.FurEliseNotesFitDuration | src/data/songs.ts:49-59 | Für Elise's notes start at 0 or later, last a positive time and end by 10 s |
| Songs.FurEliseMidiInLaneRange | src/data/songs.ts:51-59 | Für Elise's notes lie in MIDI 60 to 84 |
| Songs.FurEliseWellFormed | src/data/songs.ts:44-61 | Für Elise meets all four invariants |
| Songs.CatalogueWellFormed | src/data/songs.ts:19-62 | every sample song is well formed and song ids are distinct |
| Songs.AdjacentSortedIsSorted | src/data/songs.ts:26-59 | adjacent time order gives time order between any two notes |
| Songs.SongNotesOnKeyboard | src/data/songs.ts:27-59 | each note of a well-formed song is the key at midi − 60 (C4's MIDI number) on the default keyboard, with the same name |
| Metronome.ChangeBpm | src/components/common/Metronome.tsx:59-61 | the new tempo always lies in [40, 240]; it is exactly prev + delta when that is in range, 40 below and 240 above |
| Metronome.ChangeBpmMonotone | src/components/common/Metronome.tsx:60 | a larger change never gives a slower tempo |
| Metronome.ChangeBpmIdempotent | src/components/common/Metronome.tsx:60 | clamping a clamped tempo again changes nothing |
| Metronome.PressesKeepMultipleOfFive | src/components/common/Metronome.tsx:76-79 | from an in-range multiple of 5, the ±5 buttons only reach in-range multiples of 5 |
| Metronome.ReachableTempos | src/components/common/Metronome.tsx:9 | from the initial 100 BPM, every reachable tempo is a multiple of 5 in [40, 240] |

## Left out

- Audio and scheduling are not modelled: Tone.js transport, note scheduling, the animation frame loop, and the metronome's `Tone.Loop` (`src/components/songs/Visualizer.tsx:66-128`, `src/components/common/Metronome.tsx:14-57`). They are real-time foreign libraries. Playback time is a parameter (`now`).
- Float presentation maths is not modelled: the percentage `left`, `top`, `width` and `height` of drawn notes, and `getNotePosition`'s percentage. Only the integer lanes, the white-key count and the opaque-or-transparent choice are modelled.
- `localStorage` and JSON are replaced by the abstract `Store`. A parsed record is taken to have the right field types. A numeric field's falsy value (0, or absent) is modelled; `NaN`, `null` and non-numeric JSON values are not.
- `src/hooks/use-midi.ts` is not part of this model. It only enumerates devices.
- React is not modelled: rendering, effect scheduling, listener binding, and router navigation after the lesson completes. State setters are immediate functional updates. The keyboard's `startNote` awaits audio start-up before it updates state; the model treats it as synchronous and in order.
- Keyboard.PressThenReleaseIsSilent: holds only because `startNote` is taken as synchronous. In the source it awaits `audioEngine.initialize()` before adding the note and calling `onPlayNote` (`src/components/piano/Keyboard.tsx:43-47`), while `stopNote` is synchronous (lines 50-58). A release or leave that arrives while the initialization is pending would run `stopNote` first; the resumed start would then add the note, which stays sounding and held. The model does not represent this interleaving. `src/lib/audio.ts` is not part of this model, so whether the wait can be long enough is not settled.
- Notes.IntStr: renders every integer as plain decimal digits. JavaScript numbers are doubles: integers beyond 2^53 are not all representable, and `${n}` switches to exponent form from 10^21 in magnitude (`${1e21}` is "1e+21"). The model's rendering and its all-digits contract therefore match the source only below 10^21. Octave numbers on the keyboard are 4 to 6.
- Visualizer.VisibleNotes: compares times exactly, as do `Visualizer.Opaque` and `Visualizer.NoteDrawnOpaque`. The source computes `currentTime + 3` (`src/components/songs/Visualizer.tsx:136`) and `note.time - currentTime` (line 158) in double precision. The two can disagree at the window and fade boundaries:
  - With Twinkle's F4 at 4.0 and `currentTime` = 1.0000000000000002 (the next double after 1), the source's sum rounds to 4, so `4 < 4` hides the note; the model lists it and calls it opaque.
  - With a note at 0.3 and `currentTime` = 0.2, the source's difference is 0.09999999999999998, below 0.1, so it draws the note transparent; the model calls it opaque.
  The model does not represent this rounding; away from these boundaries the two agree.
- Progress.LevelFor: computes the level with an exact integer square root, where the source computes `Math.floor(Math.sqrt(xp / 100)) + 1` in double precision (`src/lib/progress.ts:31`). The two agree for all practical xp. Near xp = 7036876095488099, below 2^53, rounding of `xp / 100` and of the square root makes the double computation give 8388610 where the exact level is 8388609. The model does not represent this rounding.
- The runner's `progress` state (`setProgress`) is written but never read, so it is not modelled.
- The no-op validation effect (`src/components/lesson/LessonRunner.tsx:42-62`) does nothing and is not modelled.
- Keyboard.ToLower: only the lower-case mappings that give one ASCII character are modelled: A to Z and the Kelvin sign (U+212A), which JavaScript's `toLowerCase` turns into `k`, bound to C5. Other non-ASCII case mappings are dropped (the model keeps such characters unchanged), since none of them yields a key the binding table uses.
- Progress.AddXp: requires a non-negative resulting xp. For a negative xp the source's level is `NaN` (the square root of a negative number), which the model does not represent. `CompleteLesson`, `AddPracticeTime`, `LessonRunner.NextExercise` and `LessonRunner.ClickNext` inherit this requirement (`LessonRunner.CanFinish`).
- LessonRunner.OnPlay: requires the exercise index to be in range, as do `OnStop`, `Deliver` and `NextExercise`; `LessonRunner.Mount` likewise requires a lesson with at least one exercise. The source would throw reading the `notes` of a missing exercise, and the model does not represent that crash.
- The comment at `src/lib/progress.ts:10` gives the level without the `+ 1`. The model follows the code at line 31.
- Moving to the next exercise keeps the held set (`src/components/lesson/LessonRunner.tsx:99-103` never clears it). A held set that already matches the next exercise's first group therefore advances at once. The model follows the code.

=== FILE: keyboard.dfy ===
/**
 The virtual keyboard: the list of keys it draws, the computer-keyboard
 binding table, and how key and pointer events change the set of sounding
 notes and are forwarded to the keyboard's `onPlayNote` / `onStopNote`
 listeners.
 */
module Keyboard {
  import opened Notes
  import opened PianoKey

  datatype Key = Key(note: string, isBlack: bool, baseNote: string)

  const DEFAULT_START_OCTAVE := 4
  const DEFAULT_OCTAVES := 2
  /** MIDI numbers of the default keyboard's first and last keys, C4 and C6. */
  const DEFAULT_LOWEST_MIDI := 12 * (DEFAULT_START_OCTAVE + 1)
  const DEFAULT_HIGHEST_MIDI := DEFAULT_LOWEST_MIDI + 12 * DEFAULT_OCTAVES

  /** The key for pitch class `pc` in `octave`. */
  function PitchKey(pc: nat, octave: int): Key
    requires pc < 12
  {
    Key(NoteName(pc, octave), '#' in NOTES[pc], NOTES[pc])
  }

  /** The twelve keys of one octave, C to B. */
  function OctaveKeys(octave: int): (keys: seq<Key>)
    ensures |keys| == 12
  {
    seq(12, j requires 0 <= j < 12 => PitchKey(j, octave))
  }

  /** The keys of `count` consecutive octaves from `start`. */
  function OctaveRun(start: int, count: nat): (keys: seq<Key>)
    ensures |keys| == 12 * count
  {
    if count == 0 then [] else OctaveRun(start, count - 1) + OctaveKeys(start + count - 1)
  }

  /** The keyboard's key list: every octave from `startOctave`, then one closing C. */
  function KeyLayout(startOctave: int, octaves: int): (keys: seq<Key>)
    ensures |keys| == 12 * (if octaves > 0 then octaves else 0) + 1
    ensures keys[|keys| - 1] == Key(NoteName(0, startOctave + octaves), false, NOTES[0])
  {
    OctaveRun(startOctave, if octaves > 0 then octaves else 0)
      + [Key("C" + IntStr(startOctave + octaves), false, "C")]
  }

  /** Builds the key list the way the component does, octave by octave and name by name. */
  method BuildKeys(startOctave: int, octaves: int) returns (keys: seq<Key>)
    ensures keys == KeyLayout(startOctave, octaves)
  {
    keys := [];
    var i := 0;
    while i < octaves
      invariant 0 <= i
      invariant octaves > 0 ==> i <= octaves
      invariant octaves <= 0 ==> i == 0
      invariant keys == OctaveRun(startOctave, i)
    {
      var octave := startOctave + i;
      var j := 0;
      while j < |NOTES|
        invariant 0 <= j <= 12
        invariant keys == OctaveRun(startOctave, i) + OctaveKeys(octave)[..j]
      {
        var noteName := NOTES[j];
        var key := Key(noteName + IntStr(octave), '#' in noteName, noteName);
        assert OctaveKeys(octave)[j] == key;
        assert OctaveKeys(octave)[..j + 1] == OctaveKeys(octave)[..j] + [key];
        keys := keys + [key];
        j := j + 1;
      }
      assert OctaveKeys(octave)[..12] == OctaveKeys(octave);
      assert OctaveRun(startOctave, i + 1) == OctaveRun(startOctave, i) + OctaveKeys(octave);
      i := i + 1;
    }
    assert keys == OctaveRun(startOctave, if octaves > 0 then octaves else 0);
    keys := keys + [Key("C" + IntStr(startOctave + octaves), false, "C")];
  }

  /** Entry i of an octave run is pitch class i mod 12 in octave start + i div 12. */
  lemma {:induction false} OctaveRunAt(start: int, count: nat, i: nat)
    requires i < 12 * count
    ensures OctaveRun(start, count)[i] == PitchKey(i % 12, start + i / 12)
  {
    if i < 12 * (count - 1) {
      OctaveRunAt(start, count - 1, i);
    } else {
      assert OctaveRun(start, count)[i] == OctaveKeys(start + count - 1)[i - 12 * (count - 1)];
      assert i / 12 == count - 1;
    }
  }

  /** The layout has 12 * n + 1 keys; entry i is NOTES[i mod 12] in octave start + i div 12; the last is the closing C. */
  lemma KeyLayoutShape(start: int, n: nat)
    ensures |KeyLayout(start, n)| == 12 * n + 1
    ensures forall i :: 0 <= i < 12 * n ==>
      KeyLayout(start, n)[i].note == NOTES[i % 12] + IntStr(start + i / 12)
    ensures KeyLayout(start, n)[12 * n].note == "C" + IntStr(start + n)
  {
    forall i | 0 <= i < 12 * n
      ensures KeyLayout(start, n)[i].note == NOTES[i % 12] + IntStr(start + i / 12)
    {
      OctaveRunAt(start, n, i);
    }
  }

  /** Pitch class and octave of every key of the layout. */
  lemma KeyLayoutNames(start: int, n: nat, i: nat)
    requires i < 12 * n + 1
    ensures i < 12 * n ==> KeyLayout(start, n)[i] == PitchKey(i % 12, start + i / 12)
    ensures i == 12 * n ==> KeyLayout(start, n)[i].note == NoteName(0, start + n)
  {
    if i < 12 * n {
      OctaveRunAt(start, n, i);
    }
  }

  /** No two keys of the layout share a name. */
  lemma KeyNamesDistinct(start: int, n: nat)
    ensures forall i, j :: 0 <= i < j < |KeyLayout(start, n)| ==>
      KeyLayout(start, n)[i].note != KeyLayout(start, n)[j].note
  {
    var keys := KeyLayout(start, n);
    forall i, j | 0 <= i < j < |keys|
      ensures keys[i].note != keys[j].note
    {
      KeyLayoutNames(start, n, i);
      KeyLayoutNames(start, n, j);
      if keys[i].note == keys[j].note {
        if j < 12 * n {
          NoteNameInjective(i % 12, start + i / 12, j % 12, start + j / 12);
        } else {
          NoteNameInjective(i % 12, start + i / 12, 0, start + n);
        }
      }
    }
  }

  lemma ShiftByOctaves(q: int, i: nat)
    ensures (12 * q + i) % 12 == i % 12
    ensures (12 * q + i) / 12 == q + i / 12
  {
    assert 12 * q + i == 12 * (q + i / 12) + i % 12;
  }

  /** Key i of a keyboard whose first octave is `start` is MIDI note 12 * (start + 1) + i. */
  lemma KeyIsMidiNote(start: int, n: nat, i: nat)
    requires start >= -1
    requires i < 12 * n + 1
    ensures KeyLayout(start, n)[i].note == MidiName(12 * (start + 1) + i)
  {
    KeyLayoutNames(start, n, i);
    ShiftByOctaves(start + 1, i);
    if i == 12 * n {
      assert i % 12 == 0 && i / 12 == n;
    }
  }

  /** The names of the default keyboard's keys, C4 to C6. */
  const DEFAULT_KEY_NAMES: seq<string> := [
    "C4", "C#4", "D4", "D#4", "E4", "F4", "F#4", "G4", "G#4", "A4", "A#4", "B4",
    "C5", "C#5", "D5", "D#5", "E5", "F5", "F#5", "G5", "G#5", "A5", "A#5", "B5",
    "C6"
  ]

  /** The default keyboard's keys are, in order, MIDI notes 60 to 84, named as listed. */
  lemma DefaultKeyNames()
    ensures |KeyLayout(DEFAULT_START_OCTAVE, DEFAULT_OCTAVES)| == |DEFAULT_KEY_NAMES| == 25
    ensures forall i :: 0 <= i < 25 ==> DEFAULT_KEY_NAMES[i] == MidiName(60 + i)
    ensures forall i :: 0 <= i < 25 ==>
      KeyLayout(DEFAULT_START_OCTAVE, DEFAULT_OCTAVES)[i].note == DEFAULT_KEY_NAMES[i]
  {
    assert forall i :: 0 <= i < 25 ==> DEFAULT_KEY_NAMES[i] == MidiName(60 + i);
    forall i | 0 <= i < 25
      ensures KeyLayout(DEFAULT_START_OCTAVE, DEFAULT_OCTAVES)[i].note == DEFAULT_KEY_NAMES[i]
    {
      KeyIsMidiNote(DEFAULT_START_OCTAVE, DEFAULT_OCTAVES, i);
    }
  }

  /** Number of black keys in a key list. */
  function BlackCount(keys: seq<Key>): nat {
    if |keys| == 0 then 0 else (if keys[0].isBlack then 1 else 0) + BlackCount(keys[1..])
  }

  /** Number of names in a list that contain a sharp sign. */
  function SharpCount(names: seq<string>): nat {
    if |names| == 0 then 0 else (if '#' in names[0] then 1 else 0) + SharpCount(names[1..])
  }

  lemma {:induction false} BlackCountConcat(a: seq<Key>, b: seq<Key>)
    ensures BlackCount(a + b) == BlackCount(a) + BlackCount(b)
  {
    if |a| > 0 {
      assert (a + b)[0] == a[0];
      assert (a + b)[1..] == a[1..] + b;
      BlackCountConcat(a[1..], b);
    } else {
      assert a + b == b;
    }
  }

  lemma {:induction false} BlackCountFollowsNames(keys: seq<Key>, names: seq<string>)
    requires |keys| == |names|
    requires forall j :: 0 <= j < |keys| ==> (keys[j].isBlack <==> '#' in names[j])
    ensures BlackCount(keys) == SharpCount(names)
  {
    if |keys| > 0 {
      BlackCountFollowsNames(keys[1..], names[1..]);
    }
  }

  lemma OctaveBlackCount(octave: int)
    ensures BlackCount(OctaveKeys(octave)) == 5
  {
    BlackCountFollowsNames(OctaveKeys(octave), NOTES);
    assert SharpCount(NOTES) == 5;
  }

  lemma {:induction false} OctaveRunBlackCount(start: int, count: nat)
    ensures BlackCount(OctaveRun(start, count)) == 5 * count
  {
    if count > 0 {
      OctaveRunBlackCount(start, count - 1);
      BlackCountConcat(OctaveRun(start, count - 1), OctaveKeys(start + count - 1));
      OctaveBlackCount(start + count - 1);
    }
  }

  /** n octaves give 5 * n black and 7 * n + 1 white keys. */
  lemma KeyColourCounts(start: int, n: nat)
    ensures BlackCount(KeyLayout(start, n)) == 5 * n
    ensures |KeyLayout(start, n)| - BlackCount(KeyLayout(start, n)) == 7 * n + 1
  {
    OctaveRunBlackCount(start, n);
    BlackCountConcat(OctaveRun(start, n), [Key("C" + IntStr(start + n), false, "C")]);
  }

  /** The default keyboard, C4 to C6, has 15 white keys. */
  lemma DefaultKeyboardWhiteKeys()
    ensures |KeyLayout(DEFAULT_START_OCTAVE, DEFAULT_OCTAVES)| == 25
    ensures 25 - BlackCount(KeyLayout(DEFAULT_START_OCTAVE, DEFAULT_OCTAVES)) == 15
  {
    KeyColourCounts(DEFAULT_START_OCTAVE, DEFAULT_OCTAVES);
  }

  // Computer-keyboard bindings

  /** The binding table, in declaration order. */
  const KEY_MAP: seq<(string, string)> := [
    ("a", "C4"), ("w", "C#4"), ("s", "D4"), ("e", "D#4"), ("d", "E4"),
    ("f", "F4"), ("t", "F#4"), ("g", "G4"), ("y", "G#4"), ("h", "A4"), ("u", "A#4"), ("j", "B4"),
    ("k", "C5"), ("o", "C#5"), ("l", "D5"), ("p", "D#5"), (";", "E5"), ("'", "F5")
  ]

  /** The note bound to a (lower-cased) key, if any. */
  function Lookup(bindings: seq<(string, string)>, key: string): (r: Option<string>)
    ensures r.Some? <==> exists i :: 0 <= i < |bindings| && bindings[i].0 == key
    ensures r.Some? ==> exists i :: 0 <= i < |bindings| && bindings[i] == (key, r.value)
  {
    if |bindings| == 0 then None
    else if bindings[0].0 == key then Some(bindings[0].1)
    else
      var r := Lookup(bindings[1..], key);
      if r.Some? then
        ghost var i :| 0 <= i < |bindings[1..]| && bindings[1..][i] == (key, r.value);
        assert bindings[i + 1] == (key, r.value);
        r
      else r
  }

  /** KELVIN SIGN, whose lower-case form is the ASCII letter `k`. */
  const KELVIN_SIGN: char := '\U{212A}'

  /**
   `toLowerCase` on one character, for the characters whose lower-case form is
   a single ASCII character: the letters A to Z and the Kelvin sign.
   */
  function LowerChar(c: char): (l: char)
    ensures 'A' <= c <= 'Z' ==> 'a' <= l <= 'z' && l as int - c as int == 32
    ensures c == KELVIN_SIGN ==> l == 'k'
    ensures !('A' <= c <= 'Z') && c != KELVIN_SIGN ==> l == c
  {
    if 'A' <= c <= 'Z' then (c as int + 32) as char
    else if c == KELVIN_SIGN then 'k'
    else c
  }

  /** Lower-casing character by character, as `toLowerCase` does on the key names a keyboard reports. */
  function ToLower(s: string): (t: string)
    ensures |t| == |s|
    ensures forall i :: 0 <= i < |s| ==> t[i] == LowerChar(s[i])
  {
    if |s| == 0 then [] else [LowerChar(s[0])] + ToLower(s[1..])
  }

  /** The note a computer key plays: its lower-cased name looked up in the binding table. */
  function NoteForKey(key: string): (r: Option<string>)
    ensures r.Some? <==> exists i :: 0 <= i < |KEY_MAP| && KEY_MAP[i].0 == ToLower(key)
    ensures r.Some? ==> (ToLower(key), r.value) in KEY_MAP
    ensures |key| != 1 ==> r == None
  {
    var r := Lookup(KEY_MAP, ToLower(key));
    assert forall i :: 0 <= i < |KEY_MAP| ==> |KEY_MAP[i].0| == 1;
    if r.Some? then
      ghost var i :| 0 <= i < |KEY_MAP| && KEY_MAP[i] == (ToLower(key), r.value);
      assert KEY_MAP[i] in KEY_MAP;
      r
    else r
  }

  /** The lookup returns the note of the first binding for the key. */
  lemma {:induction false} LookupFirst(bindings: seq<(string, string)>, key: string, i: nat)
    requires i < |bindings| && bindings[i].0 == key
    requires forall j :: 0 <= j < i ==> bindings[j].0 != key
    ensures Lookup(bindings, key) == Some(bindings[i].1)
    decreases i
  {
    if i > 0 {
      LookupFirst(bindings[1..], key, i - 1);
    }
  }

  /** The Kelvin sign lower-cases to `k` and so plays C5. */
  lemma KelvinSignPlaysC5()
    ensures NoteForKey([KELVIN_SIGN]) == Some("C5")
  {
    assert ToLower([KELVIN_SIGN]) == "k";
    LookupFirst(KEY_MAP, "k", 12);
  }

  /** The table's keys are lower-case and distinct. */
  lemma KeyMapKeysDistinct()
    ensures forall i :: 0 <= i < |KEY_MAP| ==> ToLower(KEY_MAP[i].0) == KEY_MAP[i].0
    ensures forall i, j :: 0 <= i < j < |KEY_MAP| ==> KEY_MAP[i].0 != KEY_MAP[j].0
  {
  }

  /** No two computer keys play the same note. */
  lemma KeyMapNotesDistinct()
    ensures forall i, j :: 0 <= i < j < |KEY_MAP| ==> KEY_MAP[i].1 != KEY_MAP[j].1
  {
  }

  /** The table binds, in order, the first 18 keys of the default keyboard (C4 to F5). */
  lemma KeyMapNotesOnKeyboard()
    ensures forall i :: 0 <= i < |KEY_MAP| ==>
      i < 25 && KEY_MAP[i].1 == KeyLayout(DEFAULT_START_OCTAVE, DEFAULT_OCTAVES)[i].note
  {
    DefaultKeyNames();
  }

  /** Shift does not matter: an upper-case letter plays the same note as its lower-case form. */
  lemma ShiftedKeySameNote(c: char)
    requires 'a' <= c <= 'z'
    ensures NoteForKey([(c as int - 32) as char]) == NoteForKey([c])
  {
    assert ToLower([(c as int - 32) as char]) == [c];
    assert ToLower([c]) == [c];
  }

  // Sounding notes and forwarded callbacks

  /** A call into the listener the keyboard was given. */
  datatype Callback = Played(note: string) | Stopped(note: string)

  datatype Reaction = Reaction(active: set<string>, forwarded: seq<Callback>)

  /** `startNote`: the note becomes active and is forwarded to `onPlayNote`. */
  function StartNote(active: set<string>, note: string): (r: Reaction)
    ensures note in r.active
    ensures forall n :: n != note ==> (n in r.active <==> n in active)
    ensures r.forwarded == [Played(note)]
  {
    Reaction(active + {note}, [Played(note)])
  }

  /** `stopNote`: the note stops being active and is forwarded to `onStopNote`. */
  function StopNote(active: set<string>, note: string): (r: Reaction)
    ensures note !in r.active
    ensures forall n :: n != note ==> (n in r.active <==> n in active)
    ensures r.forwarded == [Stopped(note)]
  {
    Reaction(active - {note}, [Stopped(note)])
  }

  datatype KeyEvent = KeyDown(key: string, repeat: bool) | KeyUp(key: string)

  /** The window key handlers: auto-repeated key-downs and unbound keys do nothing. */
  function OnKeyEvent(active: set<string>, e: KeyEvent): (r: Reaction)
    ensures NoteForKey(e.key).None? ==> r == Reaction(active, [])
    ensures e.KeyDown? && e.repeat ==> r == Reaction(active, [])
    ensures e.KeyDown? && !e.repeat && NoteForKey(e.key).Some? ==> r == StartNote(active, NoteForKey(e.key).value)
    ensures e.KeyUp? && NoteForKey(e.key).Some? ==> r == StopNote(active, NoteForKey(e.key).value)
  {
    match e
    case KeyDown(key, repeat) =>
      if repeat then Reaction(active, [])
      else (
        match NoteForKey(key)
        case Some(note) => StartNote(active, note)
        case None => Reaction(active, []))
    case KeyUp(key) =>
      match NoteForKey(key)
      case Some(note) => StopNote(active, note)
      case None => Reaction(active, [])
  }

  /** A pointer event on the key named `note`, which is active when that note is sounding. */
  function OnPointer(active: set<string>, note: string, ev: PointerEvent): (r: Reaction)
    ensures IsPress(ev) ==> r == StartNote(active, note)
    ensures IsRelease(ev) || (ev == MouseLeave && note in active) ==> r == StopNote(active, note)
    ensures ev == MouseLeave && note !in active ==> r == Reaction(active, [])
  {
    match Handle(note, note in active, ev)
    case Some(StartRequest(n)) => StartNote(active, n)
    case Some(StopRequest(n)) => StopNote(active, n)
    case None => Reaction(active, [])
  }

  datatype InputEvent = FromKeys(key: KeyEvent) | FromPointer(note: string, pointer: PointerEvent)

  function OnInput(active: set<string>, e: InputEvent): Reaction {
    match e
    case FromKeys(k) => OnKeyEvent(active, k)
    case FromPointer(n, p) => OnPointer(active, n, p)
  }

  /** The active set and the forwarded callbacks after a stream of input events. */
  function Run(active: set<string>, events: seq<InputEvent>): Reaction
    decreases |events|
  {
    if |events| == 0 then Reaction(active, [])
    else
      var first := OnInput(active, events[0]);
      var rest := Run(first.active, events[1..]);
      Reaction(rest.active, first.forwarded + rest.forwarded)
  }

  /** Auto-repeat events of holding `key` down. */
  predicate AllRepeats(events: seq<InputEvent>, key: string) {
    forall i :: 0 <= i < |events| ==> events[i] == FromKeys(KeyDown(key, true))
  }

  lemma {:induction false} RepeatsChangeNothing(active: set<string>, events: seq<InputEvent>, key: string)
    requires AllRepeats(events, key)
    ensures Run(active, events) == Reaction(active, [])
    decreases |events|
  {
    if |events| > 0 {
      RepeatsChangeNothing(active, events[1..], key);
    }
  }

  /** Holding a key down starts its note exactly once, however many repeats follow. */
  lemma HeldKeyStartsOnce(active: set<string>, key: string, repeats: seq<InputEvent>)
    requires AllRepeats(repeats, key)
    ensures
      var r := Run(active, [FromKeys(KeyDown(key, false))] + repeats);
      match NoteForKey(key)
      case Some(note) => r.forwarded == [Played(note)] && r.active == active + {note}
      case None => r == Reaction(active, [])
  {
    var events := [FromKeys(KeyDown(key, false))] + repeats;
    assert events[1..] == repeats;
    RepeatsChangeNothing(OnInput(active, events[0]).active, repeats, key);
  }

  /** Pressing a key and then releasing it, or sliding off it, leaves its note silent. */
  lemma PressThenReleaseIsSilent(active: set<string>, note: string, press: PointerEvent, release: PointerEvent)
    requires IsPress(press)
    requires IsRelease(release) || release == MouseLeave
    ensures note !in OnPointer(OnPointer(active, note, press).active, note, release).active
  {
  }
}

=== FILE: lesson_runner.dfy ===
/**
 The lesson runner: the set of held notes the keyboard reports, the step
 reached in the current exercise's sequence of note groups, and the
 exercise's status. A step is accepted when the held set is exactly the
 step's group. The validation effect runs again whenever the held set, the
 exercise, the step or the status changes, so one `Check` is followed by
 further checks until nothing changes (`Settle`).
 */
module LessonRunner {
  import opened Notes
  import opened Lessons
  import opened Progress
  import Keyboard

  datatype Status = Idle | Success | Mistake

  datatype Runner = Runner(exerciseIndex: nat, held: set<string>, step: nat, status: Status)

  /** Minutes of practice credited for finishing a lesson. */
  const LESSON_MINUTES := 5

  /** `handlePlayNote`: the note is now held; nothing else changes. */
  function PlayNote(r: Runner, note: string): (r': Runner)
    ensures note in r'.held
    ensures forall n :: n != note ==> (n in r'.held <==> n in r.held)
    ensures r'.exerciseIndex == r.exerciseIndex && r'.step == r.step && r'.status == r.status
  {
    r.(held := r.held + {note})
  }

  /** `handleStopNote`: the note is no longer held; nothing else changes. */
  function StopNote(r: Runner, note: string): (r': Runner)
    ensures note !in r'.held
    ensures forall n :: n != note ==> (n in r'.held <==> n in r.held)
    ensures r'.exerciseIndex == r.exerciseIndex && r'.step == r.step && r'.status == r.status
  {
    r.(held := r.held - {note})
  }

  /**
   The validator's test: as many notes held as the group has, and every note of
   the group held. For a duplicate-free group this is set equality, so an extra
   held note never matches.
   */
  function Matches(held: set<string>, group: seq<string>): (m: bool)
    ensures m ==> GroupSet(group) <= held
    ensures DistinctNotes(group) ==> (m <==> held == GroupSet(group))
  {
    var m := |held| == |group| && forall i :: 0 <= i < |group| ==> group[i] in held;
    if DistinctNotes(group) then
      DistinctGroupSetSize(group);
      if m then SubsetOfSameSize(GroupSet(group), held); m else m
    else m
  }

  function GroupSet(group: seq<string>): set<string> {
    set i | 0 <= i < |group| :: group[i]
  }

  lemma {:induction false} DistinctGroupSetSize(group: seq<string>)
    requires DistinctNotes(group)
    ensures |GroupSet(group)| == |group|
    decreases |group|
  {
    if |group| > 0 {
      var init := group[..|group| - 1];
      var last := group[|group| - 1];
      assert DistinctNotes(init);
      DistinctGroupSetSize(init);
      assert GroupSet(group) == GroupSet(init) + {last};
      assert last !in GroupSet(init);
    }
  }

  /** A subset as large as its superset is the whole of it. */
  lemma SubsetOfSameSize(a: set<string>, b: set<string>)
    requires a <= b && |a| == |b|
    ensures a == b
  {
    assert |b - a| == |b| - |a|;
    assert b - a == {};
  }

  /** Without distinctness the test is weaker: a repeated note leaves room for a stray one. */
  lemma RepeatedNoteAdmitsStrayNote()
    ensures Matches({"C4", "D4"}, ["C4", "C4"])
    ensures {"C4", "D4"} != GroupSet(["C4", "C4"])
  {
    assert |{"C4", "D4"}| == 2;
    assert "D4" !in GroupSet(["C4", "C4"]);
  }

  /** One run of the validation effect against exercise `ex`. */
  function Check(ex: Exercise, r: Runner): (r': Runner)
    ensures r'.held == r.held && r'.exerciseIndex == r.exerciseIndex
    ensures r.status == Success || r.step >= |ex.notes| ==> r' == r
    ensures r.status != Success && r.step < |ex.notes| && !Matches(r.held, ex.notes[r.step]) ==> r' == r
    ensures r.status != Success && r.step < |ex.notes| && Matches(r.held, ex.notes[r.step]) ==>
      if r.step == |ex.notes| - 1 then r' == r.(status := Success) else r' == r.(step := r.step + 1)
  {
    if r.status == Success then r
    else if r.step >= |ex.notes| then r
    else if Matches(r.held, ex.notes[r.step]) then
      if r.step == |ex.notes| - 1 then r.(status := Success) else r.(step := r.step + 1)
    else r
  }

  /**
   The state the effect comes to rest in: the effect is applied again after
   every change it makes. From a step in range, every group passed over is
   matched by the same held set, and the runner stops either at success on
   the last step or at the first group the held set does not match.
   */
  function Settle(ex: Exercise, r: Runner): (r': Runner)
    ensures r'.held == r.held && r'.exerciseIndex == r.exerciseIndex
    ensures r.status == Success || r.step >= |ex.notes| ==> r' == r
    ensures r.status != Success && r.step < |ex.notes| ==>
      && r.step <= r'.step < |ex.notes|
      && (forall k :: r.step <= k < r'.step ==> Matches(r.held, ex.notes[k]))
      && ((r'.status == Success && r'.step == |ex.notes| - 1 && Matches(r.held, ex.notes[r'.step]))
          || (r'.status == r.status && !Matches(r.held, ex.notes[r'.step])))
    decreases if r.status == Success then 0 else 1, |ex.notes| - r.step
  {
    var next := Check(ex, r);
    if next == r then r else Settle(ex, next)
  }

  /** A settled runner is left unchanged by one more run of the effect. */
  lemma SettleIsFixpoint(ex: Exercise, r: Runner)
    ensures Check(ex, Settle(ex, r)) == Settle(ex, r)
  {
  }

  /** The exercise the runner shows. */
  function Current(lesson: Lesson, r: Runner): Exercise
    requires r.exerciseIndex < |lesson.exercises|
  {
    lesson.exercises[r.exerciseIndex]
  }

  /** The runner a lesson page starts with, after the effect's first runs. */
  function Mount(lesson: Lesson): (r: Runner)
    requires |lesson.exercises| > 0
    ensures r.exerciseIndex == 0 && r.held == {}
    ensures (forall k :: 0 <= k < |lesson.exercises[0].notes| ==> |lesson.exercises[0].notes[k]| > 0) ==>
      r == Runner(0, {}, 0, Idle)
  {
    Settle(lesson.exercises[0], Runner(0, {}, 0, Idle))
  }

  /** The keyboard reports a started note: it is held, then the effect settles. */
  function OnPlay(lesson: Lesson, r: Runner, note: string): (r': Runner)
    requires r.exerciseIndex < |lesson.exercises|
    ensures r'.held == r.held + {note} && r'.exerciseIndex == r.exerciseIndex
  {
    Settle(Current(lesson, r), PlayNote(r, note))
  }

  /** The keyboard reports a stopped note: it is released, then the effect settles. */
  function OnStop(lesson: Lesson, r: Runner, note: string): (r': Runner)
    requires r.exerciseIndex < |lesson.exercises|
    ensures r'.held == r.held - {note} && r'.exerciseIndex == r.exerciseIndex
  {
    Settle(Current(lesson, r), StopNote(r, note))
  }

  /** Once an exercise succeeded, pressing and releasing notes changes only the held set. */
  lemma SuccessAbsorbs(lesson: Lesson, r: Runner, note: string)
    requires r.exerciseIndex < |lesson.exercises|
    requires r.status == Success
    ensures OnPlay(lesson, r, note) == r.(held := r.held + {note})
    ensures OnStop(lesson, r, note) == r.(held := r.held - {note})
  {
  }

  /** A held set that does not match the current group leaves step and status alone. */
  lemma MismatchChangesNothing(lesson: Lesson, r: Runner, note: string)
    requires r.exerciseIndex < |lesson.exercises|
    requires r.step < |Current(lesson, r).notes|
    requires !Matches(r.held + {note}, Current(lesson, r).notes[r.step])
    ensures OnPlay(lesson, r, note) == r.(held := r.held + {note})
  {
  }

  /**
   What the runner always satisfies: the exercise index is in range, the step
   is 0 or within the exercise's groups, and the status is never `Mistake`.
   */
  predicate Valid(lesson: Lesson, r: Runner) {
    && r.exerciseIndex < |lesson.exercises|
    && (r.step == 0 || r.step < |lesson.exercises[r.exerciseIndex].notes|)
    && r.status != Mistake
  }

  lemma SettleKeepsValid(lesson: Lesson, r: Runner)
    requires Valid(lesson, r)
    ensures Valid(lesson, Settle(Current(lesson, r), r))
  {
  }

  lemma MountValid(lesson: Lesson)
    requires |lesson.exercises| > 0
    ensures Valid(lesson, Mount(lesson))
  {
    SettleKeepsValid(lesson, Runner(0, {}, 0, Idle));
  }

  /** Notes pressed and released keep the runner valid; in particular no input ever sets `Mistake`. */
  lemma InputKeepsValid(lesson: Lesson, r: Runner, note: string)
    requires Valid(lesson, r)
    ensures Valid(lesson, OnPlay(lesson, r, note))
    ensures Valid(lesson, OnStop(lesson, r, note))
  {
    SettleKeepsValid(lesson, PlayNote(r, note));
    SettleKeepsValid(lesson, StopNote(r, note));
  }

  /** The stored record must allow finishing without a negative xp total. */
  predicate CanFinish(s: Store, lessonId: string) {
    var p := Get(s);
    if lessonId in p.completedLessons then p.xp + XP_PER_MINUTE * LESSON_MINUTES >= 0
    else p.xp + LESSON_XP >= 0
  }

  /** The record `get` returns after completing a lesson. */
  lemma {:induction false} CompletedRecord(s: Store, lessonId: string)
    requires lessonId !in Get(s).completedLessons ==> Get(s).xp + LESSON_XP >= 0
    ensures s != NoWindow ==> Get(CompleteLesson(s, lessonId).store) == CompleteLesson(s, lessonId).progress
    ensures s == NoWindow ==> CompleteLesson(s, lessonId).store == NoWindow
  {
    var u := CompleteLesson(s, lessonId);
    if s != NoWindow {
      if lessonId !in Get(s).completedLessons {
        UpdateReadsBack(s, u);
      }
    }
  }

  datatype NextOutcome = Advanced(runner: Runner) | Finished(store: Store)

  /**
   `nextExercise`: move to the next exercise with the step back at 0 and the
   status idle (the held set is kept, and the effect settles against the new
   exercise), or, on the last exercise, complete the lesson and then credit
   five minutes of practice.
   */
  function NextExercise(lesson: Lesson, r: Runner, s: Store): (o: NextOutcome)
    requires r.exerciseIndex < |lesson.exercises|
    requires r.exerciseIndex == |lesson.exercises| - 1 ==> CanFinish(s, lesson.id)
    ensures r.exerciseIndex < |lesson.exercises| - 1 <==> o.Advanced?
    ensures o.Advanced? ==>
      && o.runner.exerciseIndex == r.exerciseIndex + 1
      && o.runner.held == r.held
      && o.runner == Settle(lesson.exercises[r.exerciseIndex + 1], Runner(r.exerciseIndex + 1, r.held, 0, Idle))
    ensures o.Finished? ==> (s == NoWindow <==> o.store == NoWindow)
  {
    if r.exerciseIndex < |lesson.exercises| - 1 then
      Advanced(Settle(lesson.exercises[r.exerciseIndex + 1], Runner(r.exerciseIndex + 1, r.held, 0, Idle)))
    else
      var completed := CompleteLesson(s, lesson.id);
      CompletedRecord(s, lesson.id);
      Finished(AddPracticeTime(completed.store, LESSON_MINUTES).store)
  }

  /** The button that calls `nextExercise` is shown only once the exercise succeeded. */
  function ClickNext(lesson: Lesson, r: Runner, s: Store): (o: Option<NextOutcome>)
    requires r.exerciseIndex < |lesson.exercises|
    requires r.exerciseIndex == |lesson.exercises| - 1 ==> CanFinish(s, lesson.id)
    ensures o.Some? <==> r.status == Success
  {
    if r.status == Success then Some(NextExercise(lesson, r, s)) else None
  }

  /** Moving on keeps the runner valid. */
  lemma NextKeepsValid(lesson: Lesson, r: Runner, s: Store)
    requires Valid(lesson, r)
    requires r.exerciseIndex == |lesson.exercises| - 1 ==> CanFinish(s, lesson.id)
    ensures NextExercise(lesson, r, s).Advanced? ==> Valid(lesson, NextExercise(lesson, r, s).runner)
  {
    if r.exerciseIndex < |lesson.exercises| - 1 {
      SettleKeepsValid(lesson, Runner(r.exerciseIndex + 1, r.held, 0, Idle));
    }
  }

  /** Unless the notes still held match the next exercise's first group, moving on resets step and status. */
  lemma AdvanceResets(lesson: Lesson, r: Runner, s: Store)
    requires r.exerciseIndex < |lesson.exercises| - 1
    requires
      var next := lesson.exercises[r.exerciseIndex + 1];
      |next.notes| == 0 || !Matches(r.held, next.notes[0])
    ensures NextExercise(lesson, r, s) == Advanced(Runner(r.exerciseIndex + 1, r.held, 0, Idle))
  {
  }

  /**
   Finishing the last exercise with a browser store: the first completion is
   worth 500 + 5 * 10 = 550 xp and records the lesson, a repeat is worth the
   50 practice xp only; both credit five minutes, and the level follows the xp.
   */
  lemma FinishAwards(lesson: Lesson, r: Runner, s: Store)
    requires r.exerciseIndex == |lesson.exercises| - 1
    requires CanFinish(s, lesson.id)
    requires s != NoWindow
    ensures
      var before := Get(s);
      var after := Get(NextExercise(lesson, r, s).store);
      var first := lesson.id !in before.completedLessons;
      && after.xp == before.xp + (if first then 550 else 50)
      && after.totalPracticeTimeMinutes == before.totalPracticeTimeMinutes + 5
      && after.completedLessons == (if first then before.completedLessons + [lesson.id] else before.completedLessons)
      && IsLevelOf(after.xp, after.level)
  {
    var completed := CompleteLesson(s, lesson.id);
    CompletedRecord(s, lesson.id);
    var practised := AddPracticeTime(completed.store, LESSON_MINUTES);
    UpdateReadsBack(completed.store, practised);
  }

  /** The held set after the runner receives the keyboard's callbacks in order. */
  function ApplyCallbacks(held: set<string>, cbs: seq<Keyboard.Callback>): set<string>
    decreases |cbs|
  {
    if |cbs| == 0 then held
    else ApplyCallbacks(if cbs[0].Played? then held + {cbs[0].note} else held - {cbs[0].note}, cbs[1..])
  }

  lemma {:induction false} ApplyCallbacksAppend(held: set<string>, a: seq<Keyboard.Callback>, b: seq<Keyboard.Callback>)
    ensures ApplyCallbacks(held, a + b) == ApplyCallbacks(ApplyCallbacks(held, a), b)
    decreases |a|
  {
    if |a| > 0 {
      assert (a + b)[0] == a[0];
      assert (a + b)[1..] == a[1..] + b;
      ApplyCallbacksAppend(if a[0].Played? then held + {a[0].note} else held - {a[0].note}, a[1..], b);
    } else {
      assert a + b == b;
    }
  }

  /** Delivers callbacks one by one, settling after each. */
  function Deliver(lesson: Lesson, r: Runner, cbs: seq<Keyboard.Callback>): (r': Runner)
    requires r.exerciseIndex < |lesson.exercises|
    ensures r'.held == ApplyCallbacks(r.held, cbs)
    ensures r'.exerciseIndex == r.exerciseIndex
    decreases |cbs|
  {
    if |cbs| == 0 then r
    else
      var next := if cbs[0].Played? then OnPlay(lesson, r, cbs[0].note) else OnStop(lesson, r, cbs[0].note);
      Deliver(lesson, next, cbs[1..])
  }

  /** One keyboard input changes the keyboard's active set exactly as its callbacks change a held set. */
  lemma InputCallbacksMatchActive(active: set<string>, e: Keyboard.InputEvent)
    ensures Keyboard.OnInput(active, e).active == ApplyCallbacks(active, Keyboard.OnInput(active, e).forwarded)
  {
  }

  lemma {:induction false} RunCallbacksMatchActive(active: set<string>, events: seq<Keyboard.InputEvent>)
    ensures Keyboard.Run(active, events).active == ApplyCallbacks(active, Keyboard.Run(active, events).forwarded)
    decreases |events|
  {
    if |events| > 0 {
      var first := Keyboard.OnInput(active, events[0]);
      InputCallbacksMatchActive(active, events[0]);
      RunCallbacksMatchActive(first.active, events[1..]);
      ApplyCallbacksAppend(active, first.forwarded, Keyboard.Run(first.active, events[1..]).forwarded);
    }
  }

  /** Starting from the same set, the runner's held notes mirror the keyboard's active notes. */
  lemma HeldMirrorsKeyboard(lesson: Lesson, r: Runner, events: seq<Keyboard.InputEvent>)
    requires r.exerciseIndex < |lesson.exercises|
    ensures Deliver(lesson, r, Keyboard.Run(r.held, events).forwarded).held == Keyboard.Run(r.held, events).active
  {
    RunCallbacksMatchActive(r.held, events);
  }

  /**
   The step is accepted without waiting for a release: one press completes a
   pattern that repeats the pressed note.
   */
  lemma RepeatedStepNeedsNoRelease()
    ensures
      var lesson := Lesson("repeat", "", "", Beginner, [Exercise("ex1", Pattern, [["C4"], ["C4"]], "")]);
      OnPlay(lesson, Runner(0, {}, 0, Idle), "C4").status == Success
  {
    var ex := Exercise("ex1", Pattern, [["C4"], ["C4"]], "");
    assert Matches({"C4"}, ex.notes[0]) && Matches({"C4"}, ex.notes[1]);
  }
}

=== FILE: lessons.dfy ===
/**
 The lesson catalogue, transcribed as constants, with the shape invariants
 the exercise validator relies on: each group of notes to hold at once is
 non-empty and duplicate-free, and every note is a key of the default
 two-octave keyboard.
 */
module Lessons {
  import Keyboard

  /** `single`: one note; `pattern`: a sequence of groups; `chord`: notes held together. */
  datatype ExerciseType = Single | Pattern | Chord

  /** An exercise; `notes` is its sequence of note groups, one group per step. */
  datatype Exercise = Exercise(id: string, kind: ExerciseType, notes: seq<seq<string>>, instruction: string)

  datatype LessonLevel = Beginner | Intermediate

  datatype Lesson = Lesson(
    id: string,
    title: string,
    description: string,
    level: LessonLevel,
    exercises: seq<Exercise>)

  const INTRO_C_MAJOR := Lesson(
    "intro-c-major",
    "1. The C Major Scale",
    "Learn the first 5 notes of the C Major scale.",
    Beginner,
    [
      Exercise("ex1", Single, [["C4"]], "Find and play Middle C (C4)"),
      Exercise("ex2", Single, [["D4"]], "Play the next white key, D4"),
      Exercise("ex3", Single, [["E4"]], "Play E4"),
      Exercise("ex4", Pattern, [["C4"], ["D4"], ["E4"]], "Play C4, then D4, then E4")
    ])

  const INTERVALS := Lesson(
    "intervals",
    "2. Basic Intervals",
    "Jumping between notes.",
    Beginner,
    [
      Exercise("ex1", Pattern, [["C4"], ["E4"]], "Play a Third: C4 to E4"),
      Exercise("ex2", Pattern, [["C4"], ["G4"]], "Play a Fifth: C4 to G4"),
      Exercise("ex3", Pattern, [["C4"], ["C5"]], "Play an Octave: C4 to C5")
    ])

  const FIRST_CHORD := Lesson(
    "first-chord",
    "3. Your First Chord",
    "Playing multiple notes at once.",
    Intermediate,
    [
      Exercise("ex1", Chord, [["C4", "E4", "G4"]], "Play C4, E4, and G4 together (C Major Triad)")
    ])

  const LESSONS: seq<Lesson> := [INTRO_C_MAJOR, INTERVALS, FIRST_CHORD]

  /** No note occurs twice in a group. */
  predicate DistinctNotes(group: seq<string>) {
    forall i, j :: 0 <= i < j < |group| ==> group[i] != group[j]
  }

  /** The group shape each exercise type stands for. */
  predicate ShapeMatchesKind(e: Exercise) {
    match e.kind
    case Single => |e.notes| == 1 && |e.notes[0]| == 1
    case Chord => |e.notes| == 1 && |e.notes[0]| >= 2
    case Pattern => |e.notes| >= 2
  }

  /** Every group is non-empty and duplicate-free. */
  predicate GroupsWellFormed(e: Exercise) {
    forall k :: 0 <= k < |e.notes| ==> |e.notes[k]| > 0 && DistinctNotes(e.notes[k])
  }

  /** Every note names a key of the default keyboard (C4 to C6). */
  predicate NotesOnKeyboard(e: Exercise) {
    forall k, j :: 0 <= k < |e.notes| && 0 <= j < |e.notes[k]| ==> e.notes[k][j] in Keyboard.DEFAULT_KEY_NAMES
  }

  predicate WellFormedExercise(e: Exercise) {
    ShapeMatchesKind(e) && GroupsWellFormed(e) && NotesOnKeyboard(e)
  }

  predicate WellFormedLesson(l: Lesson) {
    |l.exercises| >= 1 && forall i :: 0 <= i < |l.exercises| ==> WellFormedExercise(l.exercises[i])
  }

  lemma IntroCMajorWellFormed()
    ensures WellFormedLesson(INTRO_C_MAJOR)
  {
    var ex := INTRO_C_MAJOR.exercises;
    assert WellFormedExercise(ex[0]);
    assert WellFormedExercise(ex[1]);
    assert WellFormedExercise(ex[2]);
    assert WellFormedExercise(ex[3]);
  }

  lemma IntervalsWellFormed()
    ensures WellFormedLesson(INTERVALS)
  {
    var ex := INTERVALS.exercises;
    assert WellFormedExercise(ex[0]);
    assert WellFormedExercise(ex[1]);
    assert WellFormedExercise(ex[2]);
  }

  lemma FirstChordWellFormed()
    ensures WellFormedLesson(FIRST_CHORD)
  {
    assert WellFormedExercise(FIRST_CHORD.exercises[0]);
  }

  /** Every lesson is well formed, and no two lessons share an id. */
  lemma CatalogueWellFormed()
    ensures forall l :: l in LESSONS ==> WellFormedLesson(l)
    ensures forall i, j :: 0 <= i < j < |LESSONS| ==> LESSONS[i].id != LESSONS[j].id
  {
    IntroCMajorWellFormed();
    IntervalsWellFormed();
    FirstChordWellFormed();
  }

  /** A note of a well-formed exercise is the name of a key the default keyboard draws. */
  lemma ExerciseNoteIsKey(e: Exercise, k: nat, j: nat)
    requires WellFormedExercise(e)
    requires k < |e.notes| && j < |e.notes[k]|
    ensures exists idx ::
      && 0 <= idx < |Keyboard.KeyLayout(Keyboard.DEFAULT_START_OCTAVE, Keyboard.DEFAULT_OCTAVES)|
      && Keyboard.KeyLayout(Keyboard.DEFAULT_START_OCTAVE, Keyboard.DEFAULT_OCTAVES)[idx].note == e.notes[k][j]
  {
    Keyboard.DefaultKeyNames();
    var names := Keyboard.DEFAULT_KEY_NAMES;
    var idx :| 0 <= idx < |names| && names[idx] == e.notes[k][j];
    assert Keyboard.KeyLayout(Keyboard.DEFAULT_START_OCTAVE, Keyboard.DEFAULT_OCTAVES)[idx].note == e.notes[k][j];
  }
}

=== FILE: metronome.dfy ===
/**
 The metronome's tempo control: the tempo starts at 100 and each button
 press moves it by 5, clamped to [40, 240].
 */
module Metronome {

  const INITIAL_BPM := 100
  const MIN_BPM := 40
  const MAX_BPM := 240
  const BPM_STEP := 5

  /** `changeBpm(delta)`: the new tempo, clamped to [MIN_BPM, MAX_BPM]. */
  function ChangeBpm(prev: int, delta: int): (bpm: int)
    ensures MIN_BPM <= bpm <= MAX_BPM
    ensures MIN_BPM <= prev + delta <= MAX_BPM ==> bpm == prev + delta
    ensures prev + delta < MIN_BPM ==> bpm == MIN_BPM
    ensures prev + delta > MAX_BPM ==> bpm == MAX_BPM
  {
    var capped := if MAX_BPM < prev + delta then MAX_BPM else prev + delta;
    if MIN_BPM > capped then MIN_BPM else capped
  }

  /** A larger change never gives a slower tempo. */
  lemma ChangeBpmMonotone(prev: int, d1: int, d2: int)
    requires d1 <= d2
    ensures ChangeBpm(prev, d1) <= ChangeBpm(prev, d2)
  {
  }

  /** Clamping again leaves a clamped tempo unchanged. */
  lemma ChangeBpmIdempotent(prev: int, delta: int)
    ensures ChangeBpm(ChangeBpm(prev, delta), 0) == ChangeBpm(prev, delta)
  {
  }

  /** The two tempo buttons. */
  datatype BpmButton = Minus | Plus

  function ButtonDelta(b: BpmButton): int {
    match b
    case Minus => -BPM_STEP
    case Plus => BPM_STEP
  }

  /** The tempo after a sequence of button presses, starting from `bpm`. */
  function PressAll(bpm: int, presses: seq<BpmButton>): int
    decreases |presses|
  {
    if |presses| == 0 then bpm
    else PressAll(ChangeBpm(bpm, ButtonDelta(presses[0])), presses[1..])
  }

  /** From the initial tempo, button presses only ever reach in-range multiples of 5. */
  lemma {:induction false} PressesKeepMultipleOfFive(bpm: int, presses: seq<BpmButton>)
    requires bpm % BPM_STEP == 0 && MIN_BPM <= bpm <= MAX_BPM
    ensures PressAll(bpm, presses) % BPM_STEP == 0
    ensures MIN_BPM <= PressAll(bpm, presses) <= MAX_BPM
    decreases |presses|
  {
    if |presses| > 0 {
      var next := ChangeBpm(bpm, ButtonDelta(presses[0]));
      assert next % BPM_STEP == 0;
      PressesKeepMultipleOfFive(next, presses[1..]);
    }
  }

  lemma ReachableTempos(presses: seq<BpmButton>)
    ensures PressAll(INITIAL_BPM, presses) % BPM_STEP == 0
    ensures MIN_BPM <= PressAll(INITIAL_BPM, presses) <= MAX_BPM
  {
    PressesKeepMultipleOfFive(INITIAL_BPM, presses);
  }
}

=== FILE: notes.dfy ===
/**
 Note naming shared by the keyboard, the song catalogue and the lessons:
 the twelve-name chromatic table, the decimal rendering of an octave number
 (what a JavaScript template literal `${octave}` produces for an integer of
 magnitude below 10^21; larger numbers are written in exponent form there),
 and a parser that inverts `NoteName`, from which name injectivity follows.
 */
module Notes {

  datatype Option<+T> = None | Some(value: T)

  /** The chromatic pitch-class names, C first. */
  const NOTES: seq<string> := ["C", "C#", "D", "D#", "E", "F", "F#", "G", "G#", "A", "A#", "B"]

  predicate IsDigit(c: char) {
    '0' <= c <= '9'
  }

  function DigitChar(d: nat): (c: char)
    requires d < 10
    ensures IsDigit(c)
    ensures c as int - '0' as int == d
  {
    ('0' as int + d) as char
  }

  /** Decimal digits of a natural number, most significant first, no leading zeros. */
  function NatStr(n: nat): (s: string)
    ensures |s| >= 1
    ensures forall i :: 0 <= i < |s| ==> IsDigit(s[i])
    decreases n
  {
    if n < 10 then [DigitChar(n)] else NatStr(n / 10) + [DigitChar(n % 10)]
  }

  /**
   Decimal rendering of an integer, with a leading '-' when negative. This is
   JavaScript's rendering only below 10^21 in magnitude.
   */
  function IntStr(i: int): (s: string)
    ensures |s| >= 1
    ensures s[0] == '-' || IsDigit(s[0])
    ensures s[0] == '-' <==> i < 0
    ensures forall k :: 1 <= k < |s| ==> IsDigit(s[k])
  {
    if i < 0 then
      var digits := NatStr(-i);
      assert forall k :: 1 <= k < |digits| + 1 ==> ("-" + digits)[k] == digits[k - 1];
      "-" + digits
    else NatStr(i)
  }

  /** Reads a string of digits as a natural number (most significant first). */
  function ParseNat(s: string): nat
    decreases |s|
  {
    if |s| == 0 then 0
    else
      var d := s[|s| - 1] as int - '0' as int;
      ParseNat(s[..|s| - 1]) * 10 + (if 0 <= d then d else 0)
  }

  function ParseInt(s: string): int {
    if |s| > 0 && s[0] == '-' then 0 - ParseNat(s[1..]) else ParseNat(s)
  }

  lemma {:induction false} ParseNatStr(n: nat)
    ensures ParseNat(NatStr(n)) == n
    decreases n
  {
    var s := NatStr(n);
    if n >= 10 {
      ParseNatStr(n / 10);
      assert s[..|s| - 1] == NatStr(n / 10);
    }
  }

  /** `ParseInt` inverts `IntStr`; in particular `IntStr` is injective. */
  lemma ParseIntStr(i: int)
    ensures ParseInt(IntStr(i)) == i
  {
    if i < 0 {
      assert IntStr(i)[1..] == NatStr(-i);
      ParseNatStr(-i);
    } else {
      ParseNatStr(i);
    }
  }

  /** Index of a pitch-class name in `NOTES`. */
  function PitchClassOf(name: string): Option<nat> {
    if name == "C" then Some(0)
    else if name == "C#" then Some(1)
    else if name == "D" then Some(2)
    else if name == "D#" then Some(3)
    else if name == "E" then Some(4)
    else if name == "F" then Some(5)
    else if name == "F#" then Some(6)
    else if name == "G" then Some(7)
    else if name == "G#" then Some(8)
    else if name == "A" then Some(9)
    else if name == "A#" then Some(10)
    else if name == "B" then Some(11)
    else None
  }

  lemma PitchClassOfNotes(pc: nat)
    requires pc < 12
    ensures PitchClassOf(NOTES[pc]) == Some(pc)
    ensures |NOTES[pc]| == 1 || |NOTES[pc]| == 2
    ensures |NOTES[pc]| == 2 ==> NOTES[pc][1] == '#'
    ensures '#' in NOTES[pc] <==> |NOTES[pc]| == 2
  {
    assert NOTES[pc] in NOTES;
  }

  /** A key name: the pitch-class name followed by the octave number. */
  function NoteName(pc: nat, octave: int): string
    requires pc < 12
  {
    NOTES[pc] + IntStr(octave)
  }

  /** A key name is its pitch name, then a minus sign exactly when the octave is negative, then digits. */
  lemma NoteNameShape(pc: nat, octave: int)
    requires pc < 12
    ensures |NoteName(pc, octave)| > |NOTES[pc]|
    ensures NoteName(pc, octave)[..|NOTES[pc]|] == NOTES[pc]
    ensures NoteName(pc, octave)[|NOTES[pc]|] == '-' <==> octave < 0
    ensures forall k :: |NOTES[pc]| < k < |NoteName(pc, octave)| ==> IsDigit(NoteName(pc, octave)[k])
  {
    var s := NoteName(pc, octave);
    var octaveText := IntStr(octave);
    assert forall k :: |NOTES[pc]| <= k < |s| ==> s[k] == octaveText[k - |NOTES[pc]|];
  }

  /** Splits a key name into its pitch class and octave. */
  function ParseNoteName(s: string): Option<(nat, int)> {
    var split := if |s| >= 2 && s[1] == '#' then 2 else 1;
    if |s| < split then None
    else
      match PitchClassOf(s[..split])
      case None => None
      case Some(pc) => Some((pc, ParseInt(s[split..])))
  }

  lemma ParseNoteNameRoundTrip(pc: nat, octave: int)
    requires pc < 12
    ensures ParseNoteName(NoteName(pc, octave)) == Some((pc, octave))
  {
    var s := NoteName(pc, octave);
    PitchClassOfNotes(pc);
    var k := |NOTES[pc]|;
    assert s[..k] == NOTES[pc];
    assert s[k..] == IntStr(octave);
    if k == 1 {
      assert s[1] == IntStr(octave)[0];
    }
    ParseIntStr(octave);
  }

  /** Distinct (pitch class, octave) pairs give distinct key names. */
  lemma NoteNameInjective(pc1: nat, o1: int, pc2: nat, o2: int)
    requires pc1 < 12 && pc2 < 12
    requires NoteName(pc1, o1) == NoteName(pc2, o2)
    ensures pc1 == pc2 && o1 == o2
  {
    ParseNoteNameRoundTrip(pc1, o1);
    ParseNoteNameRoundTrip(pc2, o2);
  }

  /** The name of a MIDI note number: pitch class `midi mod 12`, octave `midi div 12 - 1`. */
  function MidiName(midi: nat): string {
    NoteName(midi % 12, midi / 12 - 1)
  }

  /** A MIDI name parses back to pitch class `midi mod 12` and octave `midi div 12 - 1`. */
  lemma MidiNameRoundTrip(midi: nat)
    ensures ParseNoteName(MidiName(midi)) == Some((midi % 12, midi / 12 - 1))
  {
    ParseNoteNameRoundTrip(midi % 12, midi / 12 - 1);
  }

  /** Distinct MIDI numbers have distinct names. */
  lemma MidiNameInjective(m1: nat, m2: nat)
    requires MidiName(m1) == MidiName(m2)
    ensures m1 == m2
  {
    MidiNameRoundTrip(m1);
    MidiNameRoundTrip(m2);
    assert m1 == 12 * (m1 / 12) + m1 % 12;
    assert m2 == 12 * (m2 / 12) + m2 % 12;
  }
}

=== FILE: piano_key.dfy ===
/**
 A single on-screen piano key: which pointer events ask the keyboard to
 start or stop the key's note.
 */
module PianoKey {
  import opened Notes

  datatype PointerEvent = MouseDown | MouseUp | MouseLeave | TouchStart | TouchEnd

  /** A call the key makes into the keyboard's `startNote` / `stopNote`. */
  datatype Request = StartRequest(note: string) | StopRequest(note: string)

  predicate IsPress(ev: PointerEvent) {
    ev == MouseDown || ev == TouchStart
  }

  predicate IsRelease(ev: PointerEvent) {
    ev == MouseUp || ev == TouchEnd
  }

  /**
   The key's handlers: presses start the key's own note, releases stop it,
   and leaving the key stops it only while it is sounding.
   */
  function Handle(note: string, isActive: bool, ev: PointerEvent): (r: Option<Request>)
    ensures r.Some? ==> r.value.note == note
    ensures r == Some(StartRequest(note)) <==> IsPress(ev)
    ensures r == Some(StopRequest(note)) <==> IsRelease(ev) || (ev == MouseLeave && isActive)
    ensures r == None <==> ev == MouseLeave && !isActive
  {
    match ev
    case MouseDown => Some(StartRequest(note))
    case TouchStart => Some(StartRequest(note))
    case MouseUp => Some(StopRequest(note))
    case TouchEnd => Some(StopRequest(note))
    case MouseLeave => if isActive then Some(StopRequest(note)) else None
  }
}

=== FILE: profile.dfy ===
/**
 The profile page's level bar and rank. The bar spans from the xp at which
 the current level starts to the xp at which the next one starts.
 */
module Profile {
  import opened Progress

  /** xp at which `level + 1` starts: 100 * level squared. */
  function NextLevelXp(level: int): (x: int)
    ensures x >= 0
    ensures level >= 1 ==> IsLevelOf(x, level + 1) && !IsLevelOf(x - 1, level + 1)
  {
    var x := level * level * 100;
    assert level >= 1 ==> x < 100 * (level + 1) * (level + 1);
    x
  }

  /** xp at which `level` starts: 100 * (level - 1) squared. */
  function CurrentLevelBaseXp(level: int): (x: int)
    ensures x >= 0
    ensures level >= 1 ==> IsLevelOf(x, level) && !IsLevelOf(x - 1, level)
  {
    var x := (level - 1) * (level - 1) * 100;
    assert level >= 1 ==> x < 100 * level * level;
    x
  }

  /** The width of the level band is 100 * (2 * level - 1), never zero for an integer level. */
  lemma LevelBandWidth(level: int)
    ensures NextLevelXp(level) - CurrentLevelBaseXp(level) == 100 * (2 * level - 1)
    ensures NextLevelXp(level) - CurrentLevelBaseXp(level) != 0
    ensures level >= 1 ==> NextLevelXp(level) - CurrentLevelBaseXp(level) > 0
  {
  }

  /** Percentage of the way from the current level's base xp to the next level's. */
  function LevelProgress(xp: int, level: int): (p: real)
    ensures level >= 1 ==> (0.0 <= p <==> CurrentLevelBaseXp(level) <= xp)
    ensures level >= 1 ==> (p < 100.0 <==> xp < NextLevelXp(level))
  {
    LevelBandWidth(level);
    var num := (xp - CurrentLevelBaseXp(level)) as real;
    var den := (NextLevelXp(level) - CurrentLevelBaseXp(level)) as real;
    var p := num / den * 100.0;
    if level >= 1 then ScaledRatio(num, den); p else p
  }

  /** A ratio scaled to a percentage is in [0, 100) exactly when the numerator is in [0, den). */
  lemma ScaledRatio(num: real, den: real)
    requires den > 0.0
    ensures 0.0 <= num / den * 100.0 <==> 0.0 <= num
    ensures num / den * 100.0 < 100.0 <==> num < den
  {
    var q := num / den;
    assert q * den == num;
    if q < 0.0 {
      assert num < 0.0;
    }
    if q >= 1.0 {
      assert num >= den;
    }
  }

  /** When the level is the one the ledger computes, xp lies in its band and the progress in [0, 100). */
  lemma ProgressWithinBand(xp: int, level: int)
    requires IsLevelOf(xp, level)
    ensures CurrentLevelBaseXp(level) <= xp < NextLevelXp(level)
    ensures 0.0 <= LevelProgress(xp, level) < 100.0
  {
    assert CurrentLevelBaseXp(level) == 100 * (level - 1) * (level - 1);
    assert NextLevelXp(level) == 100 * level * level;
  }

  /** The bar width actually drawn: the progress clamped to [0, 100]. */
  function BarWidth(xp: int, level: int): (w: real)
    ensures 0.0 <= w <= 100.0
    ensures 0.0 <= LevelProgress(xp, level) <= 100.0 ==> w == LevelProgress(xp, level)
    ensures LevelProgress(xp, level) < 0.0 ==> w == 0.0
    ensures LevelProgress(xp, level) > 100.0 ==> w == 100.0
  {
    var p := LevelProgress(xp, level);
    var atLeastZero := if p > 0.0 then p else 0.0;
    if 100.0 < atLeastZero then 100.0 else atLeastZero
  }

  /** For a record the ledger wrote, the drawn width is exactly the level progress. */
  lemma BarWidthOfLedgerRecord(xp: int, level: int)
    requires IsLevelOf(xp, level)
    ensures BarWidth(xp, level) == LevelProgress(xp, level)
  {
    ProgressWithinBand(xp, level);
  }

  datatype Rank = Beginner | Apprentice | Pianist | Maestro | Virtuoso {
    function Name(): string {
      match this
      case Beginner => "Beginner"
      case Apprentice => "Apprentice"
      case Pianist => "Pianist"
      case Maestro => "Maestro"
      case Virtuoso => "Virtuoso"
    }

    function Color(): string {
      match this
      case Beginner => "text-slate-400"
      case Apprentice => "text-green-400"
      case Pianist => "text-blue-400"
      case Maestro => "text-purple-400"
      case Virtuoso => "text-yellow-400"
    }

    /** Position of the rank in the ladder, Beginner lowest. */
    function Ordinal(): nat {
      match this
      case Beginner => 0
      case Apprentice => 1
      case Pianist => 2
      case Maestro => 3
      case Virtuoso => 4
    }

    /** Lowest level that earns the rank. */
    function MinLevel(): int {
      match this
      case Beginner => 1
      case Apprentice => 5
      case Pianist => 15
      case Maestro => 30
      case Virtuoso => 50
    }
  }

  /** The rank shown for a level: the highest one whose minimum level it reaches. */
  function GetRank(level: int): (r: Rank)
    ensures r == Beginner || r.MinLevel() <= level
    ensures forall higher: Rank :: higher.Ordinal() > r.Ordinal() ==> level < higher.MinLevel()
  {
    if level >= 50 then Virtuoso
    else if level >= 30 then Maestro
    else if level >= 15 then Pianist
    else if level >= 5 then Apprentice
    else Beginner
  }

  /** A level reaches a rank (or a higher one) exactly when it reaches that rank's minimum level. */
  lemma RankAtLeast(level: int, rank: Rank)
    ensures GetRank(level).Ordinal() >= rank.Ordinal() <==> level >= rank.MinLevel() || rank == Beginner
  {
  }

  /** A level from 1 up earns a rank exactly when it reaches that rank's minimum and not the next rank's. */
  lemma RankByThresholds(level: int, rank: Rank)
    requires level >= 1
    ensures GetRank(level) == rank <==>
      && rank.MinLevel() <= level
      && forall higher: Rank :: higher.Ordinal() > rank.Ordinal() ==> level < higher.MinLevel()
  {
    match rank
    case Beginner => assert Apprentice.Ordinal() > rank.Ordinal();
    case Apprentice => assert Pianist.Ordinal() > rank.Ordinal();
    case Pianist => assert Maestro.Ordinal() > rank.Ordinal();
    case Maestro => assert Virtuoso.Ordinal() > rank.Ordinal();
    case Virtuoso =>
  }

  /** A higher level never gets a lower rank. */
  lemma RankMonotone(a: int, b: int)
    requires a <= b
    ensures GetRank(a).Ordinal() <= GetRank(b).Ordinal()
  {
  }

  /** Through the ledger's formula, level m is reached exactly at 100 * (m - 1) squared xp. */
  lemma LevelReachedAt(xp: nat, m: int)
    requires m >= 1
    ensures LevelFor(xp) >= m <==> xp >= 100 * (m - 1) * (m - 1)
  {
    var level := LevelFor(xp);
    if level >= m {
      SquareMonotone(m - 1, level - 1);
      assert 100 * (m - 1) * (m - 1) <= 100 * (level - 1) * (level - 1) <= xp;
    } else {
      SquareMonotone(level, m - 1);
      assert xp < 100 * level * level <= 100 * (m - 1) * (m - 1);
    }
  }

  /** The xp from which each rank is shown. */
  lemma RankXpThreshold(xp: nat, rank: Rank)
    ensures GetRank(LevelFor(xp)).Ordinal() >= rank.Ordinal() <==>
      xp >= 100 * (rank.MinLevel() - 1) * (rank.MinLevel() - 1)
  {
    RankAtLeast(LevelFor(xp), rank);
    LevelReachedAt(xp, rank.MinLevel());
  }
}

=== FILE: progress.dfy ===
/**
 The progress/XP ledger. The browser's local storage is reduced to one
 abstract value `Store`; every ledger operation reads the stored record,
 computes, writes it back and returns the value it wrote, exactly in the
 order the ledger performs those steps.
 */
module Progress {
  import opened Notes

  datatype UserProgress = UserProgress(
    completedLessons: seq<string>,
    totalPracticeTimeMinutes: int,
    xp: int,
    level: int)

  /** A parsed stored record. `None` stands for a field that is absent or holds another falsy value. */
  datatype StoredProgress = StoredProgress(
    completedLessons: seq<string>,
    totalPracticeTimeMinutes: int,
    xp: Option<int>,
    level: Option<int>)

  /**
   What the fixed storage key holds: no browser window at all (server-side
   rendering), nothing (or an empty string), text that does not parse as
   JSON, or a parsed record.
   */
  datatype Store = NoWindow | Missing | Corrupt | Saved(record: StoredProgress)

  const LESSON_XP := 500
  const XP_PER_MINUTE := 10

  const DEFAULT_PROGRESS := UserProgress([], 0, 0, 1)

  /** `v || fallback` for a numeric field: 0 and absent values are falsy. */
  function OrElse(v: Option<int>, fallback: int): (r: int)
    ensures v.Some? && v.value != 0 ==> r == v.value
    ensures (v.None? || v.value == 0) ==> r == fallback
  {
    match v
    case Some(x) => if x != 0 then x else fallback
    case None => fallback
  }

  /** The record `get` returns for a store. */
  function Get(s: Store): (p: UserProgress)
    ensures !s.Saved? ==> p == DEFAULT_PROGRESS
    ensures s.Saved? ==> p.completedLessons == s.record.completedLessons
    ensures s.Saved? ==> p.totalPracticeTimeMinutes == s.record.totalPracticeTimeMinutes
    ensures s.Saved? && s.record.xp.Some? && s.record.xp.value != 0 ==> p.xp == s.record.xp.value
    ensures s.Saved? && (s.record.xp.None? || s.record.xp.value == 0) ==> p.xp == 0
    ensures s.Saved? && s.record.level.Some? && s.record.level.value != 0 ==> p.level == s.record.level.value
    ensures s.Saved? && (s.record.level.None? || s.record.level.value == 0) ==> p.level == 1
  {
    match s
    case Saved(r) => UserProgress(r.completedLessons, r.totalPracticeTimeMinutes, OrElse(r.xp, 0), OrElse(r.level, 1))
    case _ => DEFAULT_PROGRESS
  }

  /** The store after `save(p)`: unchanged without a window, otherwise the serialised record. */
  function Save(s: Store, p: UserProgress): (s': Store)
    ensures s == NoWindow <==> s' == NoWindow
    ensures s' != NoWindow ==> s'.Saved?
  {
    if s == NoWindow then NoWindow
    else Saved(StoredProgress(p.completedLessons, p.totalPracticeTimeMinutes, Some(p.xp), Some(p.level)))
  }

  /** Reading back a saved record yields it again exactly when its level is not the falsy 0. */
  lemma GetAfterSave(s: Store, p: UserProgress)
    requires s != NoWindow
    ensures Get(Save(s, p)) == p <==> p.level != 0
  {
  }

  /** The level predicate: `level - 1` is the largest k with 100 * k * k <= xp. */
  predicate IsLevelOf(xp: int, level: int) {
    level >= 1 && 100 * (level - 1) * (level - 1) <= xp < 100 * level * level
  }

  /** floor(sqrt(xp / 100)) + 1, for a non-negative xp. */
  function LevelFor(xp: nat): (level: nat)
    ensures IsLevelOf(xp, level)
    decreases xp
  {
    if xp == 0 then 1
    else
      var below := LevelFor(xp - 1);
      if 100 * below * below <= xp then below + 1 else below
  }

  lemma SquareMonotone(a: nat, b: nat)
    requires a <= b
    ensures a * a <= b * b
    ensures 100 * a * a <= 100 * b * b
  {
    assert a * a <= a * b <= b * b;
  }

  /** The level predicate determines the level uniquely. */
  lemma LevelUnique(xp: int, a: int, b: int)
    requires IsLevelOf(xp, a) && IsLevelOf(xp, b)
    ensures a == b
  {
    if a < b {
      SquareMonotone(a, b - 1);
    } else if b < a {
      SquareMonotone(b, a - 1);
    }
  }

  /** The level is 1 plus the largest k with 100 * k * k <= xp. */
  lemma LevelIsLargestRoot(xp: nat, k: nat)
    ensures 100 * k * k <= xp ==> k <= LevelFor(xp) - 1
    ensures 100 * (LevelFor(xp) - 1) * (LevelFor(xp) - 1) <= xp
  {
    var level := LevelFor(xp);
    if 100 * k * k <= xp && k >= level {
      SquareMonotone(level, k);
    }
  }

  /** Level is monotone non-decreasing in xp. */
  lemma LevelMonotone(x: nat, y: nat)
    requires x <= y
    ensures LevelFor(x) <= LevelFor(y)
  {
    var a, b := LevelFor(x), LevelFor(y);
    if b < a {
      SquareMonotone(b, a - 1);
    }
  }

  /** A ledger operation returns the record it wrote and the store it left. */
  datatype Update = Update(progress: UserProgress, store: Store)

  /** `addXp(amount)`: the result's level is recomputed from the new xp. */
  function AddXp(s: Store, amount: int): (u: Update)
    requires Get(s).xp + amount >= 0
    ensures u.progress.xp == Get(s).xp + amount
    ensures IsLevelOf(u.progress.xp, u.progress.level)
    ensures u.progress.completedLessons == Get(s).completedLessons
    ensures u.progress.totalPracticeTimeMinutes == Get(s).totalPracticeTimeMinutes
    ensures u.store == Save(s, u.progress)
  {
    var current := Get(s);
    var newXp := current.xp + amount;
    var updated := current.(xp := newXp, level := LevelFor(newXp));
    Update(updated, Save(s, updated))
  }

  /** `completeLesson(id)`: the first completion appends the id and awards 500 xp; a repeat changes nothing. */
  function CompleteLesson(s: Store, lessonId: string): (u: Update)
    requires lessonId !in Get(s).completedLessons ==> Get(s).xp + LESSON_XP >= 0
    ensures lessonId in Get(s).completedLessons ==> u == Update(Get(s), s)
    ensures lessonId !in Get(s).completedLessons ==>
      && u.progress.completedLessons == Get(s).completedLessons + [lessonId]
      && u.progress.xp == Get(s).xp + LESSON_XP
      && IsLevelOf(u.progress.xp, u.progress.level)
      && u.progress.totalPracticeTimeMinutes == Get(s).totalPracticeTimeMinutes
      && u.store == Save(s, u.progress)
  {
    var current := Get(s);
    if lessonId !in current.completedLessons then
      var xpUpdated := AddXp(s, LESSON_XP);
      var updated := xpUpdated.progress.(completedLessons := current.completedLessons + [lessonId]);
      Update(updated, Save(xpUpdated.store, updated))
    else
      Update(current, s)
  }

  /** `addPracticeTime(minutes)`: adds the minutes and 10 xp per minute. */
  function AddPracticeTime(s: Store, minutes: int): (u: Update)
    requires Get(s).xp + XP_PER_MINUTE * minutes >= 0
    ensures u.progress.totalPracticeTimeMinutes == Get(s).totalPracticeTimeMinutes + minutes
    ensures u.progress.xp == Get(s).xp + XP_PER_MINUTE * minutes
    ensures IsLevelOf(u.progress.xp, u.progress.level)
    ensures u.progress.completedLessons == Get(s).completedLessons
    ensures u.store == Save(s, u.progress)
  {
    var current := Get(s);
    var xpUpdated := AddXp(s, minutes * XP_PER_MINUTE);
    var updated := xpUpdated.progress.(totalPracticeTimeMinutes := current.totalPracticeTimeMinutes + minutes);
    Update(updated, Save(xpUpdated.store, updated))
  }

  /** Every record a ledger operation returns is what a later `get` reads back. */
  lemma {:induction false} UpdateReadsBack(s: Store, u: Update)
    requires s != NoWindow
    requires u.store == Save(s, u.progress)
    requires IsLevelOf(u.progress.xp, u.progress.level)
    ensures Get(u.store) == u.progress
  {
    GetAfterSave(s, u.progress);
  }

  /** Completing a lesson twice leaves the same store and result as completing it once. */
  lemma CompleteLessonIdempotent(s: Store, lessonId: string)
    requires lessonId !in Get(s).completedLessons ==> Get(s).xp + LESSON_XP >= 0
    ensures
      var once := CompleteLesson(s, lessonId);
      CompleteLesson(once.store, lessonId) == once
  {
    var once := CompleteLesson(s, lessonId);
    if s == NoWindow {
      assert once.store == NoWindow;
    } else if lessonId !in Get(s).completedLessons {
      UpdateReadsBack(s, once);
      assert lessonId in Get(once.store).completedLessons;
    }
  }

  /** With non-negative amounts, no ledger operation lowers xp, practice time or the completed count. */
  lemma LedgerNeverDecreases(s: Store, amount: nat, minutes: nat, lessonId: string)
    requires Get(s).xp >= 0
    ensures
      var a := AddXp(s, amount).progress;
      var c := CompleteLesson(s, lessonId).progress;
      var p := AddPracticeTime(s, minutes).progress;
      var g := Get(s);
      && a.xp >= g.xp && a.totalPracticeTimeMinutes >= g.totalPracticeTimeMinutes
      && |a.completedLessons| >= |g.completedLessons|
      && c.xp >= g.xp && c.totalPracticeTimeMinutes >= g.totalPracticeTimeMinutes
      && |c.completedLessons| >= |g.completedLessons|
      && p.xp >= g.xp && p.totalPracticeTimeMinutes >= g.totalPracticeTimeMinutes
      && |p.completedLessons| >= |g.completedLessons|
  {
  }
}

=== FILE: songs.dfy ===
/**
 The song catalogue, transcribed as constants, with the data invariants the
 visualizer relies on. Times are exact decimals (`real`).
 */
module Songs {
  import opened Notes
  import Keyboard

  datatype SongNote = SongNote(midi: int, name: string, time: real, duration: real)

  datatype Difficulty = Easy | Medium | Hard

  datatype Song = Song(
    id: string,
    title: string,
    artist: string,
    difficulty: Difficulty,
    notes: seq<SongNote>,
    totalDuration: real)

  const TWINKLE_NOTES: seq<SongNote> := [
      SongNote(60, "C4", 0.0, 0.5),
      SongNote(60, "C4", 0.5, 0.5),
      SongNote(67, "G4", 1.0, 0.5),
      SongNote(67, "G4", 1.5, 0.5),
      SongNote(69, "A4", 2.0, 0.5),
      SongNote(69, "A4", 2.5, 0.5),
      SongNote(67, "G4", 3.0, 1.0),

      SongNote(65, "F4", 4.0, 0.5),
      SongNote(65, "F4", 4.5, 0.5),
      SongNote(64, "E4", 5.0, 0.5),
      SongNote(64, "E4", 5.5, 0.5),
      SongNote(62, "D4", 6.0, 0.5),
      SongNote(62, "D4", 6.5, 0.5),
      SongNote(60, "C4", 7.0, 1.0)
    ]

  const TWINKLE := Song("twinkle", "Twinkle Twinkle Little Star", "Traditional", Easy, TWINKLE_NOTES, 12.0)

  const FUR_ELISE_NOTES: seq<SongNote> := [
      SongNote(76, "E5", 0.0, 0.25),
      SongNote(75, "D#5", 0.25, 0.25),
      SongNote(76, "E5", 0.5, 0.25),
      SongNote(75, "D#5", 0.75, 0.25),
      SongNote(76, "E5", 1.0, 0.25),
      SongNote(71, "B4", 1.25, 0.25),
      SongNote(74, "D5", 1.5, 0.25),
      SongNote(72, "C5", 1.75, 0.25),
      SongNote(69, "A4", 2.0, 1.0)
    ]

  const FUR_ELISE := Song("fur-elise", "Für Elise (Easy)", "Beethoven", Medium, FUR_ELISE_NOTES, 10.0)

  const SAMPLE_SONGS: seq<Song> := [TWINKLE, FUR_ELISE]

  /** Each note's name is the name of its MIDI number. */
  predicate NamesMatchMidi(song: Song) {
    forall i :: 0 <= i < |song.notes| ==>
      song.notes[i].midi >= 0 && song.notes[i].name == MidiName(song.notes[i].midi)
  }

  /** Consecutive notes start in non-decreasing time order. */
  predicate AdjacentSorted(song: Song) {
    forall i :: 0 <= i < |song.notes| - 1 ==> song.notes[i].time <= song.notes[i + 1].time
  }

  /** Each note starts at or after 0, lasts a positive time and ends within the song. */
  predicate NotesFitDuration(song: Song) {
    forall i :: 0 <= i < |song.notes| ==>
      && 0.0 <= song.notes[i].time
      && song.notes[i].duration > 0.0
      && song.notes[i].time + song.notes[i].duration <= song.totalDuration
  }

  /** Each note is in the range of the default keyboard, C4 to C6, which the visualizer's lanes also cover. */
  predicate MidiInLaneRange(song: Song) {
    forall i :: 0 <= i < |song.notes| ==>
      Keyboard.DEFAULT_LOWEST_MIDI <= song.notes[i].midi <= Keyboard.DEFAULT_HIGHEST_MIDI
  }

  predicate WellFormedSong(song: Song) {
    NamesMatchMidi(song) && AdjacentSorted(song) && NotesFitDuration(song) && MidiInLaneRange(song)
  }

  lemma TwinkleNamesMatchMidi()
    ensures NamesMatchMidi(TWINKLE)
  {
    assert MidiName(60) == "C4";
    assert MidiName(67) == "G4";
    assert MidiName(69) == "A4";
    assert MidiName(65) == "F4";
    assert MidiName(64) == "E4";
    assert MidiName(62) == "D4";
  }

  lemma TwinkleAdjacentSorted()
    ensures AdjacentSorted(TWINKLE)
  {
  }

  lemma TwinkleNotesFitDuration()
    ensures NotesFitDuration(TWINKLE)
  {
  }

  lemma TwinkleMidiInLaneRange()
    ensures MidiInLaneRange(TWINKLE)
  {
  }

  lemma TwinkleWellFormed()
    ensures WellFormedSong(TWINKLE)
  {
    TwinkleNamesMatchMidi();
    TwinkleAdjacentSorted();
    TwinkleNotesFitDuration();
    TwinkleMidiInLaneRange();
  }

  lemma FurEliseNamesMatchMidi()
    ensures NamesMatchMidi(FUR_ELISE)
  {
    assert MidiName(76) == "E5";
    assert MidiName(75) == "D#5";
    assert MidiName(71) == "B4";
    assert MidiName(74) == "D5";
    assert MidiName(72) == "C5";
    assert MidiName(69) == "A4";
  }

  lemma FurEliseAdjacentSorted()
    ensures AdjacentSorted(FUR_ELISE)
  {
  }

  lemma FurEliseNotesFitDuration()
    ensures NotesFitDuration(FUR_ELISE)
  {
  }

  lemma FurEliseMidiInLaneRange()
    ensures MidiInLaneRange(FUR_ELISE)
  {
  }

  lemma FurEliseWellFormed()
    ensures WellFormedSong(FUR_ELISE)
  {
    FurEliseNamesMatchMidi();
    FurEliseAdjacentSorted();
    FurEliseNotesFitDuration();
    FurEliseMidiInLaneRange();
  }

  /** Every catalogue song is well formed, and no two share an id. */
  lemma CatalogueWellFormed()
    ensures forall s :: s in SAMPLE_SONGS ==> WellFormedSong(s)
    ensures forall i, j :: 0 <= i < j < |SAMPLE_SONGS| ==> SAMPLE_SONGS[i].id != SAMPLE_SONGS[j].id
  {
    TwinkleWellFormed();
    FurEliseWellFormed();
  }

  /** Adjacent order gives order between any two notes. */
  lemma {:induction false} AdjacentSortedIsSorted(song: Song, i: nat, j: nat)
    requires AdjacentSorted(song)
    requires i <= j < |song.notes|
    ensures song.notes[i].time <= song.notes[j].time
    decreases j - i
  {
    if i < j {
      AdjacentSortedIsSorted(song, i + 1, j);
    }
  }

  /** A well-formed song's notes are all keys of the default keyboard, counted from its lowest MIDI number. */
  lemma SongNotesOnKeyboard(song: Song, i: nat)
    requires WellFormedSong(song)
    requires i < |song.notes|
    ensures song.notes[i].midi - Keyboard.DEFAULT_LOWEST_MIDI
      < |Keyboard.KeyLayout(Keyboard.DEFAULT_START_OCTAVE, Keyboard.DEFAULT_OCTAVES)|
    ensures song.notes[i].name
      == Keyboard.KeyLayout(Keyboard.DEFAULT_START_OCTAVE, Keyboard.DEFAULT_OCTAVES)[song.notes[i].midi - Keyboard.DEFAULT_LOWEST_MIDI].note
  {
    Keyboard.KeyIsMidiNote(Keyboard.DEFAULT_START_OCTAVE, Keyboard.DEFAULT_OCTAVES, song.notes[i].midi - Keyboard.DEFAULT_LOWEST_MIDI);
  }
}

=== FILE: visualizer.dfy ===
/**
 The song visualizer's integer geometry: which lane (white-key slot) a note
 falls in, whether it is drawn as a black key, which notes are inside the
 three-second look-ahead window, and when playback stops.
 */
module Visualizer {
  import opened Notes
  import opened Songs
  import Keyboard

  const MIN_MIDI := 60
  const MAX_MIDI := 84
  const TOTAL_SLOTS := 15
  const WINDOW_SECONDS: real := 3.0
  /** Seconds of playback allowed after the song's total duration. */
  const END_GRACE: real := 2.0
  /** A visible note is drawn transparent once it is less than this many seconds from being hit. */
  const FADE_SECONDS: real := 0.1

  /** Pitch classes of the C major scale, the white keys. */
  const WHITE_KEYS: seq<int> := [0, 2, 4, 5, 7, 9, 11]
  /** Lane of each semitone within its octave. */
  const SEMITONE_TO_WHITE_INDEX: seq<nat> := [0, 0, 1, 1, 2, 3, 3, 4, 4, 5, 5, 6]
  const BLACK_SEMITONES: seq<int> := [1, 3, 6, 8, 10]

  /** JavaScript's `a % b` for b > 0: the remainder takes the sign of the dividend. */
  function JsRem(a: int, b: int): (r: int)
    requires b > 0
    ensures a >= 0 ==> r == a % b
    ensures a < 0 ==> -b < r <= 0 && r == -((-a) % b)
  {
    if a >= 0 then a % b else -((-a) % b)
  }

  /** The lane a note is drawn in, or `None` when the table lookup misses and the lane is NaN. */
  function Slot(midi: int): (lane: Option<int>)
    ensures lane.Some? <==> midi >= MIN_MIDI || (MIN_MIDI - midi) % 12 == 0
    ensures midi >= MIN_MIDI ==> lane.Some? && lane.value >= 0
    ensures MIN_MIDI <= midi <= MAX_MIDI ==> lane.Some? && lane.value < TOTAL_SLOTS
  {
    var relativeMidi := midi - MIN_MIDI;
    var octave := relativeMidi / 12;
    var semitone := JsRem(relativeMidi, 12);
    if 0 <= semitone < 12 then Some(octave * 7 + SEMITONE_TO_WHITE_INDEX[semitone]) else None
  }

  /** The render loop's black-key test. */
  function SlotIsBlack(midi: int): (black: bool)
    ensures midi >= MIN_MIDI ==> (black <==> '#' in NOTES[midi % 12])
    ensures midi < MIN_MIDI ==> !black
  {
    var semitone := JsRem(midi - MIN_MIDI, 12);
    assert midi >= MIN_MIDI ==> semitone == midi % 12;
    PitchClassOfNotes(midi % 12);
    semitone in BLACK_SEMITONES
  }

  /** The position helper's black-key test: the pitch class is not in the C major scale. */
  function PositionIsBlack(midi: int): (black: bool)
    ensures midi >= 0 ==> (black <==> '#' in NOTES[midi % 12])
    ensures midi < 0 ==> (black <==> midi % 12 != 0)
  {
    PitchClassOfNotes(midi % 12);
    JsRem(midi, 12) !in WHITE_KEYS
  }

  /** From C4 up the lane is 7 per octave plus the semitone's lane in the table. */
  lemma SlotFromMiddleC(midi: int)
    requires midi >= MIN_MIDI
    ensures Slot(midi) == Some(7 * ((midi - MIN_MIDI) / 12) + SEMITONE_TO_WHITE_INDEX[(midi - MIN_MIDI) % 12])
  {
  }

  /** Below C4 only whole octaves below get a lane; every other note's lane is NaN. */
  lemma SlotBelowMiddleC(midi: int)
    requires midi < MIN_MIDI
    ensures Slot(midi).Some? <==> (MIN_MIDI - midi) % 12 == 0
  {
  }

  /** Notes of the two-octave range fall into one of the 15 lanes. */
  lemma SlotInRange(midi: int)
    requires MIN_MIDI <= midi <= MAX_MIDI
    ensures Slot(midi).Some? && 0 <= Slot(midi).value < TOTAL_SLOTS
  {
  }

  /** The lanes span exactly the default keyboard, so every note of a well-formed song has a lane. */
  lemma SongNoteHasLane(song: Song, i: nat)
    requires WellFormedSong(song)
    requires i < |song.notes|
    ensures MIN_MIDI == Keyboard.DEFAULT_LOWEST_MIDI && MAX_MIDI == Keyboard.DEFAULT_HIGHEST_MIDI
    ensures Slot(song.notes[i].midi).Some? && Slot(song.notes[i].midi).value < TOTAL_SLOTS
  {
  }

  /** The two black-key tests agree from C4 up. */
  lemma BlackTestsAgree(midi: int)
    requires midi >= MIN_MIDI
    ensures SlotIsBlack(midi) <==> PositionIsBlack(midi)
  {
    assert (midi - MIN_MIDI) % 12 == midi % 12;
  }

  /** A black key shares the lane of the white key just below it. */
  lemma BlackSharesLaneBelow(midi: int)
    requires midi > MIN_MIDI && SlotIsBlack(midi)
    ensures !SlotIsBlack(midi - 1)
    ensures Slot(midi) == Slot(midi - 1)
  {
    var r := midi - 1 - MIN_MIDI;
    NextSemitone(r);
    var k := r % 12;
    assert JsRem(midi - MIN_MIDI, 12) == k + 1 && JsRem(r, 12) == k;
    assert SEMITONE_TO_WHITE_INDEX[k + 1] == SEMITONE_TO_WHITE_INDEX[k] && k !in BLACK_SEMITONES;
  }

  /** The lane never decreases as the pitch rises. */
  lemma SlotMonotone(a: int, b: int)
    requires MIN_MIDI <= a <= b
    ensures Slot(a).value <= Slot(b).value
  {
    var qa, qb := (a - MIN_MIDI) / 12, (b - MIN_MIDI) / 12;
    var ka, kb := (a - MIN_MIDI) % 12, (b - MIN_MIDI) % 12;
    SlotFromMiddleC(a);
    SlotFromMiddleC(b);
    assert SEMITONE_TO_WHITE_INDEX[ka] <= 6;
    if qa < qb {
      assert 7 * qa + 6 < 7 * qb;
    } else {
      assert qa == qb && ka <= kb;
      assert SEMITONE_TO_WHITE_INDEX[ka] <= SEMITONE_TO_WHITE_INDEX[kb];
    }
  }

  /** Number of white keys among MIDI notes lo, ..., hi - 1. */
  function WhiteKeysIn(lo: int, hi: int): nat
    decreases hi - lo
  {
    if hi <= lo then 0 else WhiteKeysIn(lo, hi - 1) + (if JsRem(hi - 1, 12) in WHITE_KEYS then 1 else 0)
  }

  /** The position helper's white-key count: the white keys from C4 up to, not including, `midi`. */
  method WhiteKeyIndex(midi: int) returns (whiteKeyIndex: nat)
    ensures whiteKeyIndex == WhiteKeysIn(MIN_MIDI, midi)
  {
    whiteKeyIndex := 0;
    var m := MIN_MIDI;
    while m < midi
      invariant MIN_MIDI <= m
      invariant m <= midi || m == MIN_MIDI
      invariant whiteKeyIndex == WhiteKeysIn(MIN_MIDI, m)
    {
      if JsRem(m, 12) in WHITE_KEYS {
        whiteKeyIndex := whiteKeyIndex + 1;
      }
      m := m + 1;
    }
  }

  /** White keys among semitones 0, ..., s - 1 of an octave. */
  const WHITES_BELOW_SEMITONE: seq<nat> := [0, 1, 1, 2, 2, 3, 4, 4, 5, 5, 6, 6]

  lemma WhiteKeysClosedForm(midi: int)
    requires midi >= MIN_MIDI
    ensures WhiteKeysIn(MIN_MIDI, midi) == 7 * ((midi - MIN_MIDI) / 12) + WHITES_BELOW_SEMITONE[(midi - MIN_MIDI) % 12]
  {
    var q, k := (midi - MIN_MIDI) / 12, (midi - MIN_MIDI) % 12;
    assert midi == MIN_MIDI + 12 * q + k;
    WhiteKeysAt(q, k);
  }

  /** The white keys from C4 up to semitone k of the q-th octave above it. */
  lemma {:induction false} WhiteKeysAt(q: nat, k: nat)
    requires k < 12
    ensures WhiteKeysIn(MIN_MIDI, MIN_MIDI + 12 * q + k) == 7 * q + WHITES_BELOW_SEMITONE[k]
    decreases q, k
  {
    if k > 0 {
      WhiteKeysAt(q, k - 1);
      SemitoneOf(q, k - 1);
      WhiteStep(k - 1);
    } else if q > 0 {
      WhiteKeysAt(q - 1, 11);
      SemitoneOf(q - 1, 11);
      WhiteStep(11);
      assert MIN_MIDI + 12 * (q - 1) + 11 + 1 == MIN_MIDI + 12 * q + k;
    }
  }

  /** Quotient and remainder by 12 of r + 1, from those of r. */
  lemma NextSemitone(r: nat)
    ensures (r + 1) / 12 == (if r % 12 == 11 then r / 12 + 1 else r / 12)
    ensures (r + 1) % 12 == (if r % 12 == 11 then 0 else r % 12 + 1)
  {
    var q, k := r / 12, r % 12;
    assert r + 1 == 12 * q + (k + 1);
    if k == 11 {
      assert r + 1 == 12 * (q + 1);
    }
  }

  /** Semitone j of the q-th octave above C4 has pitch class j. */
  lemma SemitoneOf(q: nat, j: nat)
    requires j < 12
    ensures JsRem(MIN_MIDI + 12 * q + j, 12) == j
  {
    assert MIN_MIDI + 12 * q + j == 12 * (q + 5) + j;
  }

  /** Moving up one semitone within an octave adds one white key exactly when the semitone left behind is white. */
  lemma WhiteStep(k: int)
    requires 0 <= k < 12
    ensures (if k in WHITE_KEYS then 1 else 0)
      == (if k == 11 then 7 else WHITES_BELOW_SEMITONE[k + 1]) - WHITES_BELOW_SEMITONE[k]
  {
  }

  /**
   For a white key the position helper's count is the render loop's lane; for
   a black key it is one more, because the white key below is counted.
   */
  lemma WhiteCountMatchesSlot(midi: int)
    requires midi >= MIN_MIDI
    ensures !SlotIsBlack(midi) ==> WhiteKeysIn(MIN_MIDI, midi) == Slot(midi).value
    ensures SlotIsBlack(midi) ==> WhiteKeysIn(MIN_MIDI, midi) == Slot(midi).value + 1
  {
    WhiteKeysClosedForm(midi);
  }

  // The look-ahead window

  predicate InWindow(n: SongNote, currentTime: real) {
    currentTime <= n.time < currentTime + WINDOW_SECONDS
  }

  /** The notes drawn at `currentTime`: those starting within the next three seconds, in song order. */
  function VisibleNotes(notes: seq<SongNote>, currentTime: real): (visible: seq<SongNote>)
    ensures |visible| <= |notes|
    ensures forall n :: n in visible <==> n in notes && InWindow(n, currentTime)
    ensures forall n :: multiset(visible)[n] == if InWindow(n, currentTime) then multiset(notes)[n] else 0
    decreases |notes|
  {
    if |notes| == 0 then []
    else
      var rest := VisibleNotes(notes[1..], currentTime);
      assert multiset(notes) == multiset{notes[0]} + multiset(notes[1..]) by {
        assert notes == [notes[0]] + notes[1..];
      }
      assert forall n :: n in notes <==> n == notes[0] || n in notes[1..];
      if InWindow(notes[0], currentTime) then [notes[0]] + rest else rest
  }

  /** `sub` is `s` with some elements left out, order kept. */
  predicate IsSubsequence<T(==)>(sub: seq<T>, s: seq<T>)
    decreases |s|
  {
    if |sub| == 0 then true
    else if |s| == 0 then false
    else if sub[0] == s[0] then IsSubsequence(sub[1..], s[1..])
    else IsSubsequence(sub, s[1..])
  }

  lemma {:induction false} VisibleIsSubsequence(notes: seq<SongNote>, currentTime: real)
    ensures IsSubsequence(VisibleNotes(notes, currentTime), notes)
    decreases |notes|
  {
    if |notes| > 0 {
      VisibleIsSubsequence(notes[1..], currentTime);
    }
  }

  predicate SortedByTime(notes: seq<SongNote>) {
    forall i, j :: 0 <= i < j < |notes| ==> notes[i].time <= notes[j].time
  }

  /** Drawing keeps song order: sorted songs give sorted visible lists. */
  lemma {:induction false} VisibleKeepsOrder(notes: seq<SongNote>, currentTime: real)
    requires SortedByTime(notes)
    ensures SortedByTime(VisibleNotes(notes, currentTime))
    decreases |notes|
  {
    if |notes| > 0 {
      VisibleKeepsOrder(notes[1..], currentTime);
      VisibleLowerBound(notes[1..], currentTime, notes[0].time);
      if InWindow(notes[0], currentTime) {
        SortedCons(notes[0], VisibleNotes(notes[1..], currentTime));
      }
    }
  }

  /** A note no later than every note of a sorted list can be put in front of it. */
  lemma SortedCons(head: SongNote, rest: seq<SongNote>)
    requires SortedByTime(rest)
    requires forall k :: 0 <= k < |rest| ==> head.time <= rest[k].time
    ensures SortedByTime([head] + rest)
  {
    var v := [head] + rest;
    forall i, j | 0 <= i < j < |v|
      ensures v[i].time <= v[j].time
    {
      assert v[j] == rest[j - 1];
      if i > 0 {
        assert v[i] == rest[i - 1];
      }
    }
  }

  /** A lower bound on the start times of all notes bounds those of the visible ones. */
  lemma {:induction false} VisibleLowerBound(notes: seq<SongNote>, currentTime: real, bound: real)
    requires forall i :: 0 <= i < |notes| ==> bound <= notes[i].time
    ensures forall k :: 0 <= k < |VisibleNotes(notes, currentTime)| ==> bound <= VisibleNotes(notes, currentTime)[k].time
    decreases |notes|
  {
    if |notes| > 0 {
      VisibleLowerBound(notes[1..], currentTime, bound);
      var rest := VisibleNotes(notes[1..], currentTime);
      if InWindow(notes[0], currentTime) {
        var v := VisibleNotes(notes, currentTime);
        assert |v| == |rest| + 1 && v[0] == notes[0];
        forall k | 0 < k < |v|
          ensures bound <= v[k].time
        {
          assert v[k] == rest[k - 1];
        }
      }
    }
  }

  /** The render loop's end test. */
  function PlaybackEnded(now: real, song: Song): (ended: bool)
    ensures ended <==> now - song.totalDuration > END_GRACE
    ensures ended ==> forall i :: 0 <= i < |song.notes| && song.notes[i].time + song.notes[i].duration <= song.totalDuration ==>
      song.notes[i].time + song.notes[i].duration + END_GRACE < now
  {
    now > song.totalDuration + END_GRACE
  }

  /** Once playback ends, no note of a song whose notes fit its duration is still on screen. */
  lemma NothingVisibleAfterEnd(song: Song, now: real)
    requires NotesFitDuration(song)
    requires PlaybackEnded(now, song)
    ensures VisibleNotes(song.notes, now) == []
  {
    NoneInWindow(song.notes, now);
  }

  lemma {:induction false} NoneInWindow(notes: seq<SongNote>, now: real)
    requires forall i :: 0 <= i < |notes| ==> notes[i].time < now
    ensures VisibleNotes(notes, now) == []
    decreases |notes|
  {
    if |notes| > 0 {
      NoneInWindow(notes[1..], now);
    }
  }

  /** A visible note is drawn opaque while it is at least `FADE_SECONDS` from being hit, and transparent after. */
  predicate Opaque(n: SongNote, currentTime: real) {
    !(n.time - currentTime < FADE_SECONDS)
  }

  /**
   A note of such a song is drawn opaque exactly at the times in
   (time - 3, time - 0.1], and playback has not ended at any of them.
   */
  lemma NoteDrawnOpaque(song: Song, i: nat, now: real)
    requires NotesFitDuration(song)
    requires i < |song.notes|
    ensures song.notes[i] in VisibleNotes(song.notes, now) && Opaque(song.notes[i], now) <==>
      song.notes[i].time - WINDOW_SECONDS < now <= song.notes[i].time - FADE_SECONDS
    ensures now <= song.notes[i].time - FADE_SECONDS ==> !PlaybackEnded(now, song)
  {
    assert song.notes[i] in song.notes;
  }

  /** A note starting before 0.1 s is never drawn opaque once playback time is non-negative. */
  lemma EarlyNoteNeverOpaque(n: SongNote, now: real)
    requires n.time < FADE_SECONDS
    requires now >= 0.0
    ensures !Opaque(n, now)
  {
  }

  /** Twinkle's first note, at time 0, is in the visible list at time 0 but never drawn opaque. */
  lemma TwinkleFirstNoteNeverOpaque(now: real)
    requires now >= 0.0
    ensures TWINKLE.notes[0] in VisibleNotes(TWINKLE.notes, 0.0)
    ensures !Opaque(TWINKLE.notes[0], now)
  {
    assert TWINKLE.notes[0] in TWINKLE.notes;
  }

  /** Every note of such a song is in the visible list at its own start time, before playback ends. */
  lemma EveryNoteShownBeforeEnd(song: Song, i: nat)
    requires NotesFitDuration(song)
    requires i < |song.notes|
    ensures song.notes[i] in VisibleNotes(song.notes, song.notes[i].time)
    ensures !PlaybackEnded(song.notes[i].time, song)
  {
    assert song.notes[i] in song.notes;
  }
}
